=== FILE: README.md ===
# lcmiles.dev: the logic under the portfolio site

This project models the pure logic inside the lcmiles.dev portfolio site and
proves properties of it in Dafny:

- **the GitHub metrics route** (`GET /api/github/metrics`). It has:
  - the request headers every GitHub call carries;
  - a simplified `Link` header parser;
  - the repository pager driven by `rel="next"`;
  - the commit counter that reads the `rel="last"` page number;
  - the bounded retry loop on the "still computing" status 202;
  - the folds that build the payload: star/fork/issue totals, the language byte
    map merged in batches of five, the commit total over the first 30
    repositories, and the six most recently updated repositories;
  - the per-username ten-minute cache.
- **the API rate limiter** in the middleware. It keeps a fixed 60-second window
  with a cap of 30 requests per client key.
- **the skills page.** It has the name normaliser, the three-tier lookup of a
  skill named in the `?skill=` parameter, the category filter, and the
  page-state transitions they drive.
- **the contribution heatmap.** It has the intensity bucketing, the 53 displayed
  weeks and their busiest day, the month-label positions, and the seven cells
  of a week column.
- **the skill detail panel.** It has the related-projects filter, the level
  wording, the first four tags on each project card, and whether the
  related-projects section is shown.

Network answers are inputs, not effects. Each GitHub answer is a value that is
one of:

- a network failure, where the promise rejects;
- a response with a status, an optional `Link` header and a body already read
  as JSON.

The per-repository answers are functions from the repository name. The cache,
the limiter state, the current time and the server's token are explicit
parameters. Every state change returns the new state.

Files, one module each:

| file | module | contents |
|---|---|---|
| `wrappers.dfy` | `Wrappers` | `Option` |
| `seqs.dfy` | `Seqs` | `Take`, `Sum`, the left fold `Fold` with append and permutation lemmas, `Filter`, `FirstIndex` |
| `upstream.dfy` | `Upstream` | the shape of a GitHub answer, `Promise.allSettled` outcomes, `ghHeaders` |
| `link_header.dfy` | `LinkHeader` | `String.split`, the leftmost-greedy match of `<(.*)>; rel="(.*)"`, `parseLinkHeader` |
| `repos.dfy` | `Repos` | the repository record, the totals, the stable newest-first sort, `recentRepos` |
| `pager.dfy` | `Pager` | `fetchAllRepos` |
| `commit_count.dfy` | `CommitCount` | the match of `page=(\d+)>; rel="last"`, `fetchCommitCount` |
| `backoff.dfy` | `Backoff` | `fetchCommitActivity` |
| `batching.dfy` | `Batching` | slicing into batches of five and the batched fold |
| `languages.dfy` | `Languages` | `fetchRepoLanguages` and the language byte map |
| `heatmap.dfy` | `Heatmap` | `getLevel`, the displayed weeks, `maxDay`, `monthPositions`, the week columns |
| `metrics_route.dfy` | `MetricsRoute` | the payload, the token-only parts, the cache, `GET` |
| `rate_limit.dfy` | `RateLimit` | the middleware's key and fixed-window counter |
| `skills.dfy` | `Skills` | the skill record, `normalize`, `findSkillByQuery`, `filteredSkills`, page state |
| `skills_data.dfy` | `SkillsData` | the shipped catalogue and level legend, and the `CI/CD` lookup |
| `skill_detail.dfy` | `SkillDetail` | the detail panel |

The shipped catalogue shows one consequence of the lookup. The query `CI/CD`
normalises to `ci-cd`. No name normalises to exactly that. The second tier
therefore answers with the first name contained in `ci-cd`, which is `C`, and
`CI/CD Pipelines` is never reached. `SkillsData.CiCdFindsC` proves this. The
model follows the code here, not the comments beside the tiers.

## Model

| member | source | states |
|---|---|---|
| `Upstream.GhHeaders` | src/app/api/github/metrics/route.ts:10-19 | Accept and User-Agent always carry their fixed values; Authorization is present exactly when a non-empty token is configured, and is then `Bearer <token>`; no other header appears |
| `LinkHeader.Split` | src/app/api/github/metrics/route.ts:57 | splitting on `,` gives at least one part, no part contains a comma, and joining the parts with commas gives back the header |
| `LinkHeader.MatchLink` | src/app/api/github/metrics/route.ts:58-61 | a part matches exactly when some `<`…`>; rel="`…`"` occurrence exists within one line; the groups are those of the leftmost start, the longest first group, then the longest second group |
| `LinkHeader.ParseLinkHeader` | src/app/api/github/metrics/route.ts:54-56 | an absent or empty header gives the empty map |
| `LinkHeader.ParseLinkHeaderRels` | src/app/api/github/metrics/route.ts:54-64 | a relation is a key exactly when some part matches with that name, and its URL is the one from the last such part; parts that do not match are ignored |
| `LinkHeader.CollectKeys` | src/app/api/github/metrics/route.ts:57-62 | a relation is collected exactly when some matching part names it |
| `LinkHeader.CollectLastWins` | src/app/api/github/metrics/route.ts:57-62 | when several parts name the same relation, the later part's URL overwrites the earlier one |
| `LinkHeader.HasNext` | src/app/api/github/metrics/route.ts:74-75 | the pager goes on when the parsed header has a `next` relation with a non-empty URL |
| `LinkHeader.HasNextIff` | src/app/api/github/metrics/route.ts:54-75 | no header never goes on; otherwise the pager goes on exactly when the last part that names `next` carries a non-empty URL |
| `Pager.FetchAllRepos` | src/app/api/github/metrics/route.ts:66-79 | on success, the pages up to the first one without `next` were requested in order and their bodies are concatenated; on the first failed or unreadable page, the listing fails with that page's reason and discards what was collected |
| `Backoff.Settle` | src/app/api/github/metrics/route.ts:96-99 | an answer that is not 202 settles the call: a failed status or JSON that is not an array gives no weeks, a successful array answer gives exactly its weeks, and only a network failure or a non-JSON body throws |
| `Backoff.FetchCommitActivity` | src/app/api/github/metrics/route.ts:85-102 | at most `tries` requests; after the i-th 202 the base delay is 500·2^i; the first non-202 answer settles the call (a failed status or non-array JSON gives no weeks); all-202 gives no weeks; only a network failure or a non-JSON body throws |
| `Backoff.DefaultDelays` | src/app/api/github/metrics/route.ts:91 | the base delays of the default six attempts are 0.5, 1, 2, 4, 8 and 16 seconds |
| `CommitCount.LastPageNumber` | src/app/api/github/metrics/route.ts:124-125 | the number is the decimal value of the digits of the leftmost `page=<digits>>; rel="last"` occurrence, or absent when there is none |
| `CommitCount.FetchCommitCount` | src/app/api/github/metrics/route.ts:110-126 | only a network failure rejects; a failed status counts 0; with no or an empty `Link`, the length of an array body, else 0; with a `Link`, the `rel="last"` page number, else 0 |
| `Languages.FetchRepoLanguages` | src/app/api/github/metrics/route.ts:104-108 | a failed status gives the empty map; a network failure or a non-JSON body rejects; otherwise the reported map |
| `Languages.AddBytes` | src/app/api/github/metrics/route.ts:164-170 | a rejected fetch adds nothing; a fulfilled one adds its languages to the keys and its bytes to each language's total |
| `Languages.LanguageTotals` | src/app/api/github/metrics/route.ts:158-171 | a language is in the merged map exactly when some fulfilled fetch reports it, and its total is the sum of the bytes the fulfilled fetches report |
| `Languages.LanguagesOrderFree` | src/app/api/github/metrics/route.ts:161-171 | the merged map does not depend on the order of the repositories |
| `Batching.Slices` | src/app/api/github/metrics/route.ts:161-162 | the slices concatenate back to the list; each holds 1 to 5 items and all but the last hold exactly 5; there are ⌈n/5⌉ of them |
| `Batching.Batched` | src/app/api/github/metrics/route.ts:161-182 | folding slice by slice equals the unbatched fold, so each item is folded exactly once, in order |
| `Repos.TotalIsSum` | src/app/api/github/metrics/route.ts:153-155 | a total is the sum of the field over all repositories, a missing count counting 0 |
| `Repos.TotalPermutation` | src/app/api/github/metrics/route.ts:153-155 | the totals do not depend on the order of the listing |
| `Repos.TotalAppend` | src/app/api/github/metrics/route.ts:153-155 | the total over two concatenated listings is the sum of their totals |
| `Repos.SortNewestFirst` | src/app/api/github/metrics/route.ts:252 | the sorted copy is a permutation of the listing, newest first |
| `Repos.SortIsStable` | src/app/api/github/metrics/route.ts:252 | repositories with the same update time keep their listing order |
| `Repos.RecentRepos` | src/app/api/github/metrics/route.ts:252 | six repositories, or all when fewer, drawn from the listing, newest first, and none left out is newer than any chosen one |
| `MetricsRoute.Username` | src/app/api/github/metrics/route.ts:131 | an absent or empty `username` falls back to `lcmiles`; any other value is used as given |
| `MetricsRoute.CalendarOf` | src/app/api/github/metrics/route.ts:34-52 | without a token there is no calendar; with one, a failed status or a GraphQL error gives none, and a successful answer with data gives the calendar it carries; only a network failure or a non-JSON body throws |
| `MetricsRoute.PullRequests` | src/app/api/github/metrics/route.ts:242-250 | without a token or on a failed status the count is 0; otherwise `total_count`, or 0 when absent; only a network failure or a non-JSON body throws |
| `MetricsRoute.LanguageBytes` | src/app/api/github/metrics/route.ts:157-171 | the batched language map holds exactly the languages some fulfilled fetch reports, each with the sum of the reported bytes |
| `MetricsRoute.CommitTotal` | src/app/api/github/metrics/route.ts:173-182 | the batched commit total is the sum of the counts of the first min(30, n) repositories, with a rejected count adding nothing |
| `MetricsRoute.Assemble` | src/app/api/github/metrics/route.ts:254-268 | the payload's star, fork and issue totals are the sums over the whole listing, and the profile fields are copied from the user |
| `MetricsRoute.Compute` | src/app/api/github/metrics/route.ts:141-268 | a computed answer is never marked cached, and a payload needs a readable profile and a complete listing |
| `MetricsRoute.ComputeOutcomes` | src/app/api/github/metrics/route.ts:141-268 | each outcome in the order the route awaits its requests: a failed profile status answers with that status and the rate-limit headers; a network failure or non-JSON profile is a server error; after a readable profile, a failed listing is a server error with that listing failure, a listing that never ends is unfinished, a thrown calendar or search is a server error, and when all of them settle the answer is a payload; without a token the calendar and search never cause a failure |
| `MetricsRoute.WithoutTokenComputes` | src/app/api/github/metrics/route.ts:184-250 | without a token, a readable profile and a complete listing always give a payload, with no calendar and 0 pull requests |
| `MetricsRoute.ComputedPayload` | src/app/api/github/metrics/route.ts:254-268 | a computed payload copies the profile's repository, follower and following counts and holds the listing's star, fork and issue totals, the commit total, the six recent repositories and the language map; without a token it has no calendar and 0 pull requests |
| `MetricsRoute.Refresh` | src/app/api/github/metrics/route.ts:132 | a refresh is asked for exactly when the `refresh` parameter is the string `1` |
| `MetricsRoute.ServesCached` | src/app/api/github/metrics/route.ts:136-137 | the cache answers exactly when no refresh is asked for and the username's entry expires strictly after `now` |
| `MetricsRoute.Get` | src/app/api/github/metrics/route.ts:134-139 | a cache hit answers `cached` and leaves the cache alone; otherwise the payload is computed, only a success is stored for `now + 600000`, and no other username's entry changes |
| `MetricsRoute.CachedIff` | src/app/api/github/metrics/route.ts:137 | an answer is marked cached exactly when there is no refresh and the entry expires strictly after `now` |
| `MetricsRoute.StoredThenServed` | src/app/api/github/metrics/route.ts:270 | after a request stores a computed payload, the next request for that username, on the cache this one leaves, is answered from it, marked cached, when it does not ask for a refresh and comes within ten minutes |
| `MetricsRoute.ExpiredRecomputed` | src/app/api/github/metrics/route.ts:137 | an entry whose expiry time is not after `now` is not served |
| `MetricsRoute.RefreshRecomputes` | src/app/api/github/metrics/route.ts:132-147 | `refresh=1` always recomputes, and a failed computation leaves the cache unchanged |
| `MetricsRoute.DefaultUserShared` | src/app/api/github/metrics/route.ts:131-134 | an absent and an empty `username` are the same request |
| `RateLimit.ClientKey` | src/middleware.ts:7 | the key is `x-forwarded-for`, else `x-real-ip`, else `unknown`, an empty header counting as absent |
| `RateLimit.Middleware` | src/middleware.ts:6-30 | outside `/api/` the request passes and the state is unchanged; a missing or expired record starts a window of count 1; at the cap within the window the answer is 429 and nothing changes; otherwise the count goes up by one; only the requester's record changes; every count stays within 1..30 |
| `RateLimit.AtMostCapPerWindow` | src/middleware.ts:13-25 | before a record's reset time at most `30 - count` more of that client's API requests pass, whatever other clients do, and the reset time does not move |
| `Skills.Trim` | src/app/skills/page.tsx:21 | trimming cuts only JavaScript white space and line terminators, from both ends, and leaves none at either end |
| `Skills.Collapse` | src/app/skills/page.tsx:21 | each run of characters outside `[a-z0-9]` becomes one `-`: the result holds only `a-z`, `0-9` and `-`, never two `-` in a row, is empty only for empty input, and begins with `-` exactly when the input begins outside the class |
| `Skills.CollapseAcross` | src/app/skills/page.tsx:21 | two runs of letters and digits separated by a run of other characters come out joined by a single `-` |
| `Skills.ToLower` | src/app/skills/page.tsx:21 | lowering leaves no ASCII capital and never shortens the string |
| `Skills.ToLowerSingle` | src/app/skills/page.tsx:21 | the model's lowering of one character: an ASCII capital to its small letter, U+0130 to `i` followed by U+0307, U+212A to `k`, any other character to itself; this agrees with `toLowerCase` on everything `[a-z0-9]` can see |
| `Skills.ToLowerAppend` | src/app/skills/page.tsx:21 | the model's lowering of a concatenation lowers each part, so it is fixed character by character (`toLowerCase` itself is context-sensitive, but not in a way `[a-z0-9]` can see) |
| `Skills.Normalize` | src/app/skills/page.tsx:21 | every normalised string holds only `a-z`, `0-9` and `-`, never two `-` in a row |
| `Skills.NormalizeIdempotent` | src/app/skills/page.tsx:21 | normalising twice is normalising once |
| `Skills.NormalizeWord` | src/app/skills/page.tsx:21 | a single word of Latin letters and digits normalises to its lower case, character by character |
| `Skills.FindSkillByQuery` | src/app/skills/page.tsx:23-35 | the first skill whose name equals the query if any, else the first whose name the query contains, else the first whose name contains the query, else none; a result is always in the list |
| `Skills.SecondTierAnswers` | src/app/skills/page.tsx:28-30 | when no name equals the query, the first name contained in the query answers |
| `Skills.EmptyQueryFindsFirst` | src/app/skills/page.tsx:31-33 | a query that normalises to nothing finds the first skill, provided no name normalises to nothing |
| `Skills.FilteredSkills` | src/app/skills/page.tsx:48-50 | `All` gives the whole list; a category gives exactly its skills, each as often as listed, in list order |
| `Skills.OnSkillParam` | src/app/skills/page.tsx:37-46 | an absent or empty parameter, or one naming no skill, leaves the page as it is; a parameter naming a skill opens it under `All` |
| `Skills.OnCategoryChange` | src/app/skills/page.tsx:56-59 | choosing a category closes the open skill |
| `Skills.OpenedSkillIsListed` | src/app/skills/page.tsx:37-50 | whenever the `?skill=` parameter changes the open skill, the newly opened skill is one of the skills the page then lists |
| `SkillsData.CiCdFindsC` | src/app/skills/page.tsx:28-30 | with the shipped catalogue, the query `CI/CD` finds the skill `C` |
| `SkillsData.NormalizeCiCd` | src/app/skills/page.tsx:21 | `CI/CD` normalises to `ci-cd` |
| `Heatmap.GetLevel` | src/components/ContributionHeatmap.tsx:31-38 | the level is in 0..4, 0 exactly for a zero count; with m = max(max, 1), 4 iff 4c > 3m, 3 iff 2c > m and 4c ≤ 3m, 2 iff 4c > m and 2c ≤ m, else 1 |
| `Heatmap.LevelMonotone` | src/components/ContributionHeatmap.tsx:33-37 | a larger count never gets a lower level |
| `Heatmap.BusiestDayIsTop` | src/components/ContributionHeatmap.tsx:31-38 | a count equal to a positive maximum gets level 4 |
| `Heatmap.DisplayedWeeks` | src/components/ContributionHeatmap.tsx:50 | the displayed weeks are the last min(53, n) weeks, in order |
| `Heatmap.AllDays` | src/components/ContributionHeatmap.tsx:51 | the flattened days are the weeks' days concatenated in week order, each day as often as its week lists it |
| `Heatmap.MaxDay` | src/components/ContributionHeatmap.tsx:51-52 | `maxDay` is at least 0 and every day's count, and is 0 or one of the counts |
| `Heatmap.MonthPositions` | src/components/ContributionHeatmap.tsx:55-64 | a week is labelled exactly when its month label differs from the previous week's; indices strictly increase; consecutive labels differ; each label is its week's; the first week is labelled when its label is not empty |
| `Heatmap.FirstOnWeekday` | src/components/ContributionHeatmap.tsx:93 | the first day of the week with the given weekday, or none |
| `Heatmap.Column` | src/components/ContributionHeatmap.tsx:92-94 | a column has 7 cells; cell i is empty when no day has weekday i, and otherwise holds the level of the first such day |
| `Heatmap.Grid` | src/components/ContributionHeatmap.tsx:89-95 | one seven-cell column per displayed week: column w is the column of the w-th of the last min(53, n) weeks, shaded against the busiest displayed day; every shown level indexes the five shade classes |
| `SkillDetail.RelatedProjects` | src/components/SkillDetail.tsx:18-20 | an order-preserving sub-sequence of the projects holding exactly those whose id the skill lists, each as often as in the catalogue; none without `projectIds` |
| `SkillDetail.LevelDescriptionsAgree` | src/components/SkillDetail.tsx:22-28 | the panel's wording of every level 1..5 is the legend's |
| `SkillDetail.CardTags` | src/components/SkillDetail.tsx:128 | a card shows the first min(4, k) tags, in order |
| `SkillDetail.YearSlotAsWritten` | src/components/SkillDetail.tsx:138-140 | as written: no year shows nothing, a non-zero year shows its badge, and a year of 0 leaves bare text |
| `SkillDetail.ZeroYearLeaks` | src/components/SkillDetail.tsx:138-140 | a project with year 0 shows a stray `0` |
| `SkillDetail.YearSlotIntended` | src/components/SkillDetail.tsx:138-140 | corrected: the badge exactly for a non-zero year, never stray text, and the same as the code on every year but 0 |
| `SkillDetail.Card` | src/components/SkillDetail.tsx:110-140 | the card links to the project's page, copies its title and description, shows the subtitle only when non-empty, the first four tags, and the year badge exactly for a non-zero year (corrected year corner) |
| `SkillDetail.Render` | src/components/SkillDetail.tsx:15-16 | no skill renders nothing; a skill renders its name, level, wording, tags and related-project cards, and the section is shown exactly when there are cards |
| `SkillDetail.RelatedSection` | src/components/SkillDetail.tsx:104-113 | the section is shown exactly when a project the skill lists exists, and every link leads to such a project |

## Left out

- HTTP and GraphQL calls, JSON parsing, `NextResponse` and `process.env`. They are I/O. The model takes their results as input values and the token as a parameter. The response bodies' JSON layout, the `Cache-Control` header and the error message texts are not modelled; a 500 carries the reason as a datatype.
- `Math.random` jitter and `sleep` in `fetchCommitActivity`. Randomness and time: only the integer base delay is modelled.
- The concurrency of `Promise.allSettled`. The requests of a batch run at once, but `Promise.allSettled` returns their outcomes in input order, and the route folds them in that order once the batch has settled. So the model folds each batch in order, exactly as the source does. The order of the requests themselves is unobservable here, since each answer is an input.
- The calendar's date window, the GraphQL query text and its field-by-field copy, plus the calendar's `months` and `colors`. They depend on the local time zone and are a pure copy.
- The month label text (`toLocaleString`). It depends on locale and time zone, so it is a parameter `monthOf`.
- MetricsRoute.Get: one request is treated as a single atomic step. In the source, `GET` reads the time and the cache entry at its start and writes the entry only after many awaits. Overlapping requests for one username therefore interleave, and the last to finish wins. A request that started earlier but finished later overwrites a newer entry with an earlier expiry. A `refresh=1` request in between also replaces the entry. `MetricsRoute.StoredThenServed` is stated only for the next request on the cache a request leaves.
- Pager.FetchAllRepos: the responses are a finite sequence of pages, so a listing that is still announcing `next` when they run out is reported as `Unanswered` (and `GET` then answers `ListingUnfinished`) instead of requesting forever.
- Repos.Total, Repos.TotalIsSum, Languages.AddBytes, Languages.LanguageTotals, MetricsRoute.LanguageBytes, MetricsRoute.CommitTotal: the source adds JavaScript numbers, which are IEEE doubles. The model adds unbounded integers. The two agree while every partial sum of stars, forks, issues, language bytes and commit counts stays at or below 2^53; beyond that the source's totals round.
- Heatmap.GetLevel: the float division is replaced by the exact real ratio. The two agree whenever `count` is below 2^53 and `max` below 2^52: a ratio that is not exactly a quarter, a half or three quarters then lies at least 1/(4·max) from each of them, more than the rounding of the quotient. Above that they can differ: `count` = 6755399441055742 with `max` = 9007199254740989 has an exact ratio just above 3/4 (level 4), but the float quotient rounds to 0.75 (level 3).
- CommitCount.LastPageNumber: the page number is an exact integer. `parseInt` loses precision beyond 2^53.
- Skills.ToLower, Skills.ToLowerSingle, Skills.ToLowerAppend, Skills.Normalize: `toLowerCase` is modelled only where it matters for the `[a-z0-9]` class: A–Z, U+0130 (to `i` and a combining dot) and U+212A (to `k`). Every other character is kept as it is. JavaScript lowers many more characters (`É` to `é`), and it applies context-sensitive rules such as the final-sigma rule (`ΑΣ` to `ας`, where lowering part by part gives `ασ`). So the modelled lowering equals `toLowerCase` only after the result is collapsed. Every character it leaves differently either is already lower case or lowers to characters outside the class. Those fall into the same `-` run either way, so the normalised result is the same.
- Names inherited by plain objects (the cache and the language map). A username or language named after an `Object.prototype` member behaves differently in the source. Examples are `__proto__`, `constructor`, `toString`, `valueOf` and `hasOwnProperty`. In the language map, `allLangs[lang] || 0` then reads the inherited value. For a name such as `constructor` or `toString` the sum becomes a string concatenation, stored as the language's total. For `__proto__` the sum is also a string, and assigning it goes to the prototype setter, which ignores anything that is not an object, so the language silently disappears from the map. In the cache, `__proto__` replaces the prototype instead of storing an own entry. The model treats every name as an ordinary key.
- The metrics page, the starfield, the hero typewriter, the contact form and route, the project pages, the legend and the home page. They are UI state, timers, canvas animation, or a wrapper over a mail library that is not part of this model.
- The percentage bar and the category colours in the detail panel. They are presentation only.

## Findings

| source | as written | input that shows it | evidently intended | confidence | as-written member | corrected member |
|---|---|---|---|---|---|---|
| src/components/SkillDetail.tsx:138-140 | `{project.year && (<span>…</span>)}`: for a year of 0 the expression is the number 0, which React renders as the text "0" beside the card | a project with `year: 0` (the field is an optional number) | show the year badge for a real year and nothing otherwise | medium, not executed; no shipped project has year 0 | `SkillDetail.YearSlotAsWritten`, `SkillDetail.ZeroYearLeaks` | `SkillDetail.YearSlotIntended`, used by `SkillDetail.Card` |

=== FILE: backoff.dfy ===
/** `fetchCommitActivity`: polling GitHub's commit-activity statistics, which
    answers 202 while it is still computing them, with exponential back-off and a
    bounded number of attempts. The route defines it but does not call it. */
module Backoff {
  import opened Upstream

  /** One week of the statistics: its start and its commit total. */
  datatype WeekActivity = WeekActivity(week: int, total: int)

  datatype ActivityBody = JsonArray(weeks: seq<WeekActivity>) | JsonOther | NotJson

  type ActivityFetch = Fetch<ActivityBody>

  /** The settled promise: it rejects, or resolves to a list of weeks. */
  datatype Activity = Threw | Returned(weeks: seq<WeekActivity>)

  const StillComputing: int := 202
  const DefaultTries: nat := 6
  const BaseDelayMs: nat := 500

  function Pow2(n: nat): nat {
    if n == 0 then 1 else 2 * Pow2(n - 1)
  }

  predicate IsComputing(f: ActivityFetch) {
    f.Response? && f.status == StillComputing
  }

  /** The first `n` attempts were all answered "still computing". */
  ghost predicate ComputingThrough(respond: nat -> ActivityFetch, n: nat) {
    forall i: nat :: i < n ==> IsComputing(respond(i))
  }

  /** The outcome of an attempt that was not answered 202: a network failure or
      a body that is not JSON rejects; any other failed status, or JSON that is
      not an array, gives no weeks. */
  function Settle(f: ActivityFetch): (a: Activity)
    requires !IsComputing(f)
    ensures a.Threw? <==> f.NetworkError? || (IsOk(f.status) && f.body.NotJson?)
    ensures a.Returned? && a.weeks != [] ==> f.Response? && IsOk(f.status) && f.body == JsonArray(a.weeks)
    ensures f.Response? && IsOk(f.status) && f.body.JsonArray? ==> a == Returned(f.body.weeks)
    ensures f.Response? && (!IsOk(f.status) || f.body.JsonOther?) ==> a == Returned([])
  {
    match f
    case NetworkError => Threw
    case Response(status, _, body) =>
      if !IsOk(status) then Returned([])
      else match body
        case JsonArray(weeks) => Returned(weeks)
        case JsonOther => Returned([])
        case NotJson => Threw
  }

  /** `fetchCommitActivity(owner, repo, tries)`, where `respond(i)` is the
      answer to attempt `i` and `delays` lists the base delay slept after each
      202 (the random jitter added to it is left out). At most `tries` requests
      are made; the first answer that is not 202 settles the call; when every
      attempt is answered 202 the result is empty. */
  method FetchCommitActivity(respond: nat -> ActivityFetch, tries: nat)
      returns (out: Activity, attempts: nat, delays: seq<nat>)
    ensures attempts <= tries
    ensures forall i :: 0 <= i < |delays| ==> delays[i] == BaseDelayMs * Pow2(i)
    ensures ComputingThrough(respond, tries) ==>
              attempts == tries && |delays| == tries && out == Returned([])
    ensures !ComputingThrough(respond, tries) ==>
              && 1 <= attempts
              && ComputingThrough(respond, attempts - 1)
              && !IsComputing(respond(attempts - 1))
              && |delays| == attempts - 1
              && out == Settle(respond(attempts - 1))
  {
    attempts := 0;
    delays := [];
    var i: nat := 0;
    while i < tries
      invariant i <= tries
      invariant attempts == i && |delays| == i
      invariant ComputingThrough(respond, i)
      invariant forall t :: 0 <= t < |delays| ==> delays[t] == BaseDelayMs * Pow2(t)
    {
      var res := respond(i);
      attempts := attempts + 1;
      if IsComputing(res) {
        delays := delays + [BaseDelayMs * Pow2(i)];
        i := i + 1;
      } else {
        out := Settle(res);
        return;
      }
    }
    out := Returned([]);
  }

  /** The default six attempts back off 0.5 s, 1 s, 2 s, 4 s, 8 s and 16 s. */
  lemma DefaultDelays()
    ensures seq(DefaultTries, i requires 0 <= i < DefaultTries => BaseDelayMs * Pow2(i))
            == [500, 1000, 2000, 4000, 8000, 16000]
  {
    assert Pow2(5) == 32 by {
      assert Pow2(1) == 2 && Pow2(2) == 4 && Pow2(3) == 8 && Pow2(4) == 16;
    }
  }
}

=== FILE: batching.dfy ===
/** The route's bounded-concurrency loops: the items are cut into consecutive
    slices of five, each slice is fetched with `Promise.allSettled` and its
    results are folded in before the next slice starts. */
module Batching {
  import opened Seqs

  const Concurrency: nat := 5

  /** `items.slice(i, i + 5)` for i = 0, 5, 10, ...: consecutive non-empty
      slices, all full except possibly the last, that partition the items in
      order, ceil(n / 5) of them. */
  function Slices<T>(items: seq<T>): (r: seq<seq<T>>)
    ensures Flatten(r) == items
    ensures forall i :: 0 <= i < |r| ==> 0 < |r[i]| <= Concurrency
    ensures forall i :: 0 <= i < |r| - 1 ==> |r[i]| == Concurrency
    ensures |r| == (|items| + Concurrency - 1) / Concurrency
    decreases |items|
  {
    if |items| == 0 then []
    else if |items| <= Concurrency then
      assert Flatten([items]) == items + Flatten([]);
      [items]
    else
      var rest := Slices(items[Concurrency..]);
      assert ([items[..Concurrency]] + rest)[1..] == rest;
      assert items == items[..Concurrency] + items[Concurrency..];
      [items[..Concurrency]] + rest
  }

  /** The slices folded in turn, each one item by item in its settled order. */
  function FoldSlices<T, A>(acc: A, slices: seq<seq<T>>, step: (A, T) -> A): A
    decreases |slices|
  {
    if |slices| == 0 then acc else FoldSlices(Fold(acc, slices[0], step), slices[1..], step)
  }

  lemma {:induction false} FoldSlicesIsFold<T, A>(acc: A, slices: seq<seq<T>>, step: (A, T) -> A)
    ensures FoldSlices(acc, slices, step) == Fold(acc, Flatten(slices), step)
    decreases |slices|
  {
    if |slices| > 0 {
      FoldAppend(acc, slices[0], Flatten(slices[1..]), step);
      FoldSlicesIsFold(Fold(acc, slices[0], step), slices[1..], step);
    }
  }

  /** The batched loop folds every item exactly once, in order: it equals the
      plain, unbatched fold. */
  function Batched<T, A>(acc: A, items: seq<T>, step: (A, T) -> A): (r: A)
    ensures r == Fold(acc, items, step)
  {
    var slices := Slices(items);
    FoldSlicesIsFold(acc, slices, step);
    FoldSlices(acc, slices, step)
  }
}

=== FILE: commit_count.dfy ===
/** `fetchCommitCount`: a repository's commit total read off the `rel="last"`
    page number of a one-commit-per-page listing. */
module CommitCount {
  import opened Wrappers
  import opened Upstream

  predicate IsDigit(c: char) {
    '0' <= c <= '9'
  }

  const PagePrefix: string := "page="
  const LastSuffix: string := ">; rel=\"last\""

  /** `p[i..]` starts a match of `/page=(\d+)>; rel="last"/` whose digits are
      `p[i+5..e]`. Because `>` is not a digit, the greedy `\d+` can only stop at
      the end of the run of digits, so `e` is determined by `i`. */
  ghost predicate IsLastMatch(p: string, i: int, e: int) {
    && 0 <= i
    && i + |PagePrefix| < e
    && e + |LastSuffix| <= |p|
    && p[i..i + |PagePrefix|] == PagePrefix
    && (forall t :: i + |PagePrefix| <= t < e ==> IsDigit(p[t]))
    && p[e..e + |LastSuffix|] == LastSuffix
  }

  /** End of the run of digits starting at `from`. */
  function DigitsEnd(p: string, from: nat): (e: nat)
    requires from <= |p|
    ensures from <= e <= |p|
    ensures forall t :: from <= t < e ==> IsDigit(p[t])
    ensures e < |p| ==> !IsDigit(p[e])
    decreases |p| - from
  {
    if from < |p| && IsDigit(p[from]) then DigitsEnd(p, from + 1) else from
  }

  /** A run of digits ends only once: at the first non-digit. */
  lemma DigitsStopOnce(p: string, from: nat, e: nat, e': nat)
    requires from <= e <= |p| && from <= e' < |p|
    requires forall t :: from <= t < e ==> IsDigit(p[t])
    requires e < |p| ==> !IsDigit(p[e])
    requires forall t :: from <= t < e' ==> IsDigit(p[t])
    requires !IsDigit(p[e'])
    ensures e == e'
  {
  }

  /** The match starting at `i`, given by the end of its digits. */
  function LastMatchAt(p: string, i: nat): (r: Option<nat>)
    requires i <= |p|
    ensures r.Some? ==> IsLastMatch(p, i, r.value)
    ensures r.None? ==> forall e :: !IsLastMatch(p, i, e)
    ensures forall e :: IsLastMatch(p, i, e) ==> r == Some(e)
  {
    if i + |PagePrefix| <= |p| && p[i..i + |PagePrefix|] == PagePrefix then
      var e := DigitsEnd(p, i + |PagePrefix|);
      assert forall e' :: IsLastMatch(p, i, e') ==> e' == e by {
        forall e' | IsLastMatch(p, i, e') ensures e' == e {
          DigitsStopOnce(p, i + |PagePrefix|, e, e');
        }
      }
      if i + |PagePrefix| < e && e + |LastSuffix| <= |p| && p[e..e + |LastSuffix|] == LastSuffix
      then Some(e) else None
    else None
  }

  /** The leftmost match at or after `from`, as `(i, e)`. */
  function FindLast(p: string, from: nat): (r: Option<(nat, nat)>)
    requires from <= |p|
    ensures r.Some? ==> from <= r.value.0 && IsLastMatch(p, r.value.0, r.value.1)
    ensures r.Some? ==> forall i, e :: from <= i < r.value.0 ==> !IsLastMatch(p, i, e)
    ensures r.None? ==> forall i, e :: from <= i ==> !IsLastMatch(p, i, e)
    decreases |p| - from
  {
    if from == |p| then None
    else match LastMatchAt(p, from)
      case Some(e) => Some((from, e))
      case None => FindLast(p, from + 1)
  }

  /** `parseInt(digits, 10)` on a non-empty run of decimal digits. */
  function DecimalValue(ds: string): nat
    requires forall t :: 0 <= t < |ds| ==> IsDigit(ds[t])
    decreases |ds|
  {
    if |ds| == 0 then 0
    else
      assert IsDigit(ds[|ds| - 1]);
      10 * DecimalValue(ds[..|ds| - 1]) + (ds[|ds| - 1] as int - '0' as int)
  }

  /** `link.match(/page=(\d+)>; rel="last"/)` read as a number: the digits of
      the leftmost match, or nothing when no part of the header matches. */
  function LastPageNumber(link: string): (n: Option<nat>)
    ensures n.None? <==> forall i, e :: !IsLastMatch(link, i, e)
    ensures n.Some? ==> exists i, e :: IsLastMatch(link, i, e)
                          && (forall i', e' :: IsLastMatch(link, i', e') ==> i <= i')
                          && n.value == DecimalValue(link[i + |PagePrefix|..e])
  {
    match FindLast(link, 0)
    case None => None
    case Some((i, e)) =>
      assert forall i', e' :: IsLastMatch(link, i', e') ==> i <= i';
      Some(DecimalValue(link[i + |PagePrefix|..e]))
  }

  /** The body of the commits listing: a JSON array, some other JSON value, or
      text that is not JSON. */
  datatype CommitBody = JsonArray(length: nat) | JsonOther | NotJson

  type CommitFetch = Fetch<CommitBody>

  /** `fetchCommitCount(owner, repo)`: only a network failure rejects; a failed
      status counts 0; without a `Link` header the number of listed commits
      (0 when the body is not a JSON array); with one, the `rel="last"` page
      number, or 0 when the header has none. */
  function FetchCommitCount(f: CommitFetch): (c: Settled<nat>)
    ensures c.Rejected? <==> f.NetworkError?
    ensures f.Response? && !IsOk(f.status) ==> c == Fulfilled(0)
    ensures f.Response? && IsOk(f.status) && (f.link.None? || f.link == Some("")) ==>
              c == Fulfilled(if f.body.JsonArray? then f.body.length else 0)
    ensures f.Response? && IsOk(f.status) && f.link.Some? && f.link.value != "" ==>
              if exists i, e :: IsLastMatch(f.link.value, i, e)
              then exists i, e :: IsLastMatch(f.link.value, i, e)
                     && (forall i', e' :: IsLastMatch(f.link.value, i', e') ==> i <= i')
                     && c == Fulfilled(DecimalValue(f.link.value[i + |PagePrefix|..e]))
              else c == Fulfilled(0)
  {
    match f
    case NetworkError => Rejected
    case Response(status, link, body) =>
      if !IsOk(status) then Fulfilled(0)
      else if link.None? || link.value == "" then
        Fulfilled(if body.JsonArray? then body.length else 0)
      else
        Fulfilled(LastPageNumber(link.value).GetOr(0))
  }
}

=== FILE: heatmap.dfy ===
/** The contribution heatmap: the last 53 weeks of the contribution calendar,
    each day bucketed into one of five shades relative to the busiest day, with
    one label per run of weeks starting in the same month. */
module Heatmap {
  import opened Wrappers
  import opened Seqs

  /** `weekday` is 0 for Sunday. */
  datatype Day = Day(date: string, count: int, weekday: int)
  datatype Week = Week(firstDay: string, days: seq<Day>)
  datatype Calendar = Calendar(totalContributions: int, weeks: seq<Week>)

  // ---------------------------------------------------------------------------
  // getLevel
  // ---------------------------------------------------------------------------

  const LevelClasses: seq<string> := [
    "bg-slate-800 border border-slate-700/40",
    "bg-blue-900/60 hover:bg-blue-900/80",
    "bg-blue-800/70 hover:bg-blue-800/80",
    "bg-blue-700/80 hover:bg-blue-600/80",
    "bg-cyan-500/90 hover:bg-cyan-400/90"
  ]

  function MaxOf(a: int, b: int): int {
    if a >= b then a else b
  }

  /** `getLevel(count, max)`: 0 for no contributions, otherwise the quarter of
      `max(max, 1)` the ratio `count / max(max, 1)` exceeds, from 1 to 4. The
      thresholds 0.75, 0.5 and 0.25 are exact, so each test is equivalent to
      an integer cross-multiplication. */
  function GetLevel(count: int, max: int): (level: nat)
    ensures level < |LevelClasses|
    ensures level == 0 <==> count == 0
    ensures count != 0 ==>
              var m := MaxOf(max, 1);
              && (level == 4 <==> 4 * count > 3 * m)
              && (level == 3 <==> 2 * count > m && 4 * count <= 3 * m)
              && (level == 2 <==> 4 * count > m && 2 * count <= m)
              && (level == 1 <==> 4 * count <= m)
  {
    if count == 0 then 0
    else
      var m := MaxOf(max, 1);
      var ratio := count as real / m as real;
      assert ratio > 0.75 <==> 4 * count > 3 * m by { RatioAbove(count, m, 3, 4); }
      assert ratio > 0.5 <==> 2 * count > m by { RatioAbove(count, m, 1, 2); }
      assert ratio > 0.25 <==> 4 * count > m by { RatioAbove(count, m, 1, 4); }
      if ratio > 0.75 then 4
      else if ratio > 0.5 then 3
      else if ratio > 0.25 then 2
      else 1
  }

  /** `count / m > p / q` exactly when `q * count > p * m`, for positive `m`, `q`. */
  lemma RatioAbove(count: int, m: int, p: int, q: int)
    requires m > 0 && q > 0
    ensures count as real / m as real > p as real / q as real <==> q * count > p * m
  {
    var r := count as real / m as real;
    assert r * m as real == count as real;
    assert (q * count) as real == q as real * count as real;
    assert (p * m) as real == p as real * m as real;
    if r > p as real / q as real {
      assert r * (q * m) as real > (p as real / q as real) * (q * m) as real;
    } else {
      assert r * (q * m) as real <= (p as real / q as real) * (q * m) as real;
    }
  }

  /** More contributions never give a lighter shade. */
  lemma {:induction false} LevelMonotone(c1: int, c2: int, max: int)
    requires 0 <= c1 <= c2
    ensures GetLevel(c1, max) <= GetLevel(c2, max)
  {
    var m := MaxOf(max, 1);
    if c1 > 0 {
      assert 4 * c1 <= 4 * c2 && 2 * c1 <= 2 * c2;
    }
  }

  /** The busiest day gets the darkest shade. */
  lemma BusiestDayIsTop(max: int)
    requires max > 0
    ensures GetLevel(max, max) == 4
  {
  }

  // ---------------------------------------------------------------------------
  // weeks and maxDay
  // ---------------------------------------------------------------------------

  const ShownWeeks: nat := 53

  /** `calendar.weeks.slice(-53)`. */
  function DisplayedWeeks(cal: Calendar): (ws: seq<Week>)
    ensures |ws| == Min(ShownWeeks, |cal.weeks|)
    ensures ws == cal.weeks[|cal.weeks| - |ws|..]
  {
    TakeLast(cal.weeks, ShownWeeks)
  }

  /** `weeks.flatMap(w => w.contributionDays)`: every day of every week, and
      nothing else, week after week. */
  function AllDays(ws: seq<Week>): (days: seq<Day>)
    ensures forall d :: d in days <==> exists w :: 0 <= w < |ws| && d in ws[w].days
    ensures |ws| > 0 ==> |ws[0].days| <= |days| && days[..|ws[0].days|] == ws[0].days
    ensures days == Flatten(WeekDays(ws))
    decreases |ws|
  {
    if |ws| == 0 then []
    else
      var rest := AllDays(ws[1..]);
      assert forall w :: 0 < w < |ws| ==> ws[w] == ws[1..][w - 1];
      assert WeekDays(ws)[1..] == WeekDays(ws[1..]);
      ws[0].days + rest
  }

  /** The days of each week, week by week. */
  function WeekDays(ws: seq<Week>): (dss: seq<seq<Day>>)
    ensures |dss| == |ws| && forall w :: 0 <= w < |ws| ==> dss[w] == ws[w].days
  {
    seq(|ws|, w requires 0 <= w < |ws| => ws[w].days)
  }

  /** `allDays.reduce((m, d) => Math.max(m, d.contributionCount), 0)`: the
      largest count shown, or 0 when no day has a positive count. */
  function MaxDay(days: seq<Day>): (m: int)
    ensures m >= 0
    ensures forall i :: 0 <= i < |days| ==> days[i].count <= m
    ensures m == 0 || exists i :: 0 <= i < |days| && days[i].count == m
    decreases |days|
  {
    if |days| == 0 then 0
    else
      var init := days[..|days| - 1];
      var m := MaxDay(init);
      assert forall i :: 0 <= i < |init| ==> days[i] == init[i];
      MaxOf(m, days[|days| - 1].count)
  }

  // ---------------------------------------------------------------------------
  // monthPositions
  // ---------------------------------------------------------------------------

  datatype MonthPosition = MonthPosition(text: string, weekIndex: nat)

  /** Some position labels week `i`. */
  predicate Labelled(positions: seq<MonthPosition>, i: int) {
    exists k :: 0 <= k < |positions| && positions[k].weekIndex == i
  }

  /** Appending a position for week `idx` labels it and leaves the other weeks
      as they were. */
  lemma LabelledAppend(positions: seq<MonthPosition>, p: MonthPosition, i: int)
    ensures Labelled(positions + [p], i) <==> Labelled(positions, i) || p.weekIndex == i
  {
    var ps := positions + [p];
    if Labelled(ps, i) && p.weekIndex != i {
      var k :| 0 <= k < |ps| && ps[k].weekIndex == i;
      assert positions[k] == ps[k];
    }
    if Labelled(positions, i) {
      var k :| 0 <= k < |positions| && positions[k].weekIndex == i;
      assert ps[k] == positions[k];
    }
    if p.weekIndex == i {
      assert ps[|positions|] == p;
    }
  }

  /** Week `idx` gets a label: its month label differs from the previous week's
      (from `''` for the first week). */
  predicate StartsMonth(ws: seq<Week>, monthOf: string -> string, idx: nat)
    requires idx < |ws|
  {
    monthOf(ws[idx].firstDay) != (if idx == 0 then "" else monthOf(ws[idx - 1].firstDay))
  }

  /** The positions label weeks below `bound` with their own month, in
      increasing week order, and consecutive labels differ. */
  ghost predicate Placed(ws: seq<Week>, monthOf: string -> string, positions: seq<MonthPosition>, bound: nat) {
    && bound <= |ws|
    && (forall k :: 0 <= k < |positions| ==>
          positions[k].weekIndex < bound && positions[k].text == monthOf(ws[positions[k].weekIndex].firstDay))
    && (forall k :: 0 < k < |positions| ==> positions[k - 1].weekIndex < positions[k].weekIndex)
    && (forall k :: 0 < k < |positions| ==> positions[k - 1].text != positions[k].text)
  }

  lemma PushPlaced(ws: seq<Week>, monthOf: string -> string, positions: seq<MonthPosition>, idx: nat)
    requires Placed(ws, monthOf, positions, idx) && idx < |ws|
    requires |positions| > 0 ==> positions[|positions| - 1].text != monthOf(ws[idx].firstDay)
    ensures Placed(ws, monthOf, positions + [MonthPosition(monthOf(ws[idx].firstDay), idx)], idx + 1)
  {
  }

  /** The `monthPositions` loop, with the locale-dependent month name of a
      week's first day abstracted as `monthOf`: a position for exactly the weeks
      that start a month, in increasing week order, carrying the week's label,
      so that consecutive labels differ. */
  method MonthPositions(ws: seq<Week>, monthOf: string -> string) returns (positions: seq<MonthPosition>)
    ensures forall k :: 0 <= k < |positions| ==>
              positions[k].weekIndex < |ws| && positions[k].text == monthOf(ws[positions[k].weekIndex].firstDay)
    ensures forall k :: 0 < k < |positions| ==> positions[k - 1].weekIndex < positions[k].weekIndex
    ensures forall k :: 0 < k < |positions| ==> positions[k - 1].text != positions[k].text
    ensures forall idx :: 0 <= idx < |ws| ==>
              (StartsMonth(ws, monthOf, idx) <==> Labelled(positions, idx))
    ensures |ws| > 0 && monthOf(ws[0].firstDay) != "" ==> |positions| > 0 && positions[0].weekIndex == 0
  {
    positions := [];
    var lastMonth := "";
    for idx := 0 to |ws|
      invariant lastMonth == (if idx == 0 then "" else monthOf(ws[idx - 1].firstDay))
      invariant |positions| > 0 ==> positions[|positions| - 1].text == lastMonth
      invariant Placed(ws, monthOf, positions, idx)
      invariant forall i :: 0 <= i < idx ==> (StartsMonth(ws, monthOf, i) <==> Labelled(positions, i))
    {
      var l := monthOf(ws[idx].firstDay);
      if l != lastMonth {
        forall i ensures Labelled(positions + [MonthPosition(l, idx)], i) <==> Labelled(positions, i) || i == idx {
          LabelledAppend(positions, MonthPosition(l, idx), i);
        }
        PushPlaced(ws, monthOf, positions, idx);
        positions := positions + [MonthPosition(l, idx)];
        lastMonth := l;
      } else {
        assert !Labelled(positions, idx);
      }
    }
    if |ws| > 0 && monthOf(ws[0].firstDay) != "" {
      assert StartsMonth(ws, monthOf, 0);
      var k :| 0 <= k < |positions| && positions[k].weekIndex == 0;
      FirstIndexIsLeast(positions, k);
    }
  }

  /** With strictly increasing week indices, the first one is the least. */
  lemma {:induction false} FirstIndexIsLeast(positions: seq<MonthPosition>, k: nat)
    requires k < |positions|
    requires forall j :: 0 < j < |positions| ==> positions[j - 1].weekIndex < positions[j].weekIndex
    ensures positions[0].weekIndex <= positions[k].weekIndex
    decreases k
  {
    if k > 0 {
      FirstIndexIsLeast(positions, k - 1);
    }
  }

  // ---------------------------------------------------------------------------
  // The seven cells of a week column
  // ---------------------------------------------------------------------------

  /** `contributionDays.find(d => d.weekday === wd)`, as an index. */
  function FirstOnWeekday(days: seq<Day>, wd: int): (r: Option<nat>)
    ensures r.Some? ==> r.value < |days| && days[r.value].weekday == wd
    ensures r.Some? ==> forall j :: 0 <= j < r.value ==> days[j].weekday != wd
    ensures r.None? ==> forall j :: 0 <= j < |days| ==> days[j].weekday != wd
    decreases |days|
  {
    if |days| == 0 then None
    else if days[0].weekday == wd then Some(0)
    else match FirstOnWeekday(days[1..], wd)
      case None => None
      case Some(j) => Some(j + 1)
  }

  /** A column's cells: for each weekday slot 0..6, the first day of that
      weekday, shown with its shade, or an empty cell when there is none. */
  function Column(week: Week, maxDay: int): (cells: seq<Option<nat>>)
    ensures |cells| == 7
    ensures forall wd :: 0 <= wd < 7 ==>
              (cells[wd].None? <==> forall j :: 0 <= j < |week.days| ==> week.days[j].weekday != wd)
    ensures forall wd :: 0 <= wd < 7 && cells[wd].Some? ==>
              cells[wd].value < |LevelClasses|
              && exists j :: 0 <= j < |week.days| && week.days[j].weekday == wd
                   && (forall j' :: 0 <= j' < j ==> week.days[j'].weekday != wd)
                   && cells[wd].value == GetLevel(week.days[j].count, maxDay)
  {
    seq(7, wd requires 0 <= wd < 7 =>
      match FirstOnWeekday(week.days, wd)
      case None => None
      case Some(j) => Some(GetLevel(week.days[j].count, maxDay)))
  }

  /** The grid the component renders: one seven-cell column per displayed week,
      shaded against the busiest displayed day. */
  function Grid(cal: Calendar): (grid: seq<seq<Option<nat>>>)
    ensures |grid| == Min(ShownWeeks, |cal.weeks|)
    ensures forall w :: 0 <= w < |grid| ==> |grid[w]| == 7
    ensures forall w, wd :: 0 <= w < |grid| && 0 <= wd < 7 && grid[w][wd].Some? ==> grid[w][wd].value < |LevelClasses|
    ensures forall w :: 0 <= w < |grid| ==>
              grid[w] == Column(cal.weeks[|cal.weeks| - |grid| + w], MaxDay(AllDays(DisplayedWeeks(cal))))
  {
    var ws := DisplayedWeeks(cal);
    var maxDay := MaxDay(AllDays(ws));
    seq(|ws|, w requires 0 <= w < |ws| => Column(ws[w], maxDay))
  }
}

=== FILE: languages.dfy ===
/** The language byte map: per-repository language statistics merged by
    addition into one map. */
module Languages {
  import opened Seqs
  import opened Upstream
  import opened Repos

  /** Language name to byte count. */
  type LangMap = map<string, int>

  datatype LangBody = LanguageBytes(bytes: LangMap) | NotJson

  type LangFetch = Fetch<LangBody>

  /** `fetchRepoLanguages(owner, repo)`: a failed status gives `{}`; a network
      failure or a body that is not JSON rejects. */
  function FetchRepoLanguages(f: LangFetch): (s: Settled<LangMap>)
    ensures s.Rejected? <==> f.NetworkError? || (IsOk(f.status) && f.body.NotJson?)
    ensures f.Response? && !IsOk(f.status) ==> s == Fulfilled(map[])
    ensures f.Response? && IsOk(f.status) && f.body.LanguageBytes? ==> s == Fulfilled(f.body.bytes)
  {
    match f
    case NetworkError => Rejected
    case Response(status, _, body) =>
      if !IsOk(status) then Fulfilled(map[])
      else match body
        case LanguageBytes(bytes) => Fulfilled(bytes)
        case NotJson => Rejected
  }

  /** `m[lang] || 0`. */
  function Bytes(m: LangMap, lang: string): int {
    if lang in m then m[lang] else 0
  }

  /** The loop over `Object.entries(res.value)`: a fulfilled map adds each of
      its languages' bytes to the running total; a rejected fetch adds nothing. */
  function AddBytes(acc: LangMap, s: Settled<LangMap>): (r: LangMap)
    ensures s.Rejected? ==> r == acc
    ensures s.Fulfilled? ==> r.Keys == acc.Keys + s.value.Keys
    ensures s.Fulfilled? ==> forall lang :: Bytes(r, lang) == Bytes(acc, lang) + Bytes(s.value, lang)
  {
    match s
    case Rejected => acc
    case Fulfilled(m) => map lang | lang in acc.Keys + m.Keys :: Bytes(acc, lang) + Bytes(m, lang)
  }

  /** The fold step for a repository whose languages fetch settled as
      `fetched(r)`. */
  function LangStep(fetched: Repo -> Settled<LangMap>): (LangMap, Repo) -> LangMap {
    (acc: LangMap, r: Repo) => AddBytes(acc, fetched(r))
  }

  /** What repository `r` adds to language `lang`. */
  function Contribution(s: Settled<LangMap>, lang: string): int {
    if s.Fulfilled? then Bytes(s.value, lang) else 0
  }

  /** A language appears exactly when some fulfilled fetch reports it, and its
      total is the sum of the bytes every fulfilled fetch reports for it. */
  lemma {:induction false} LanguageTotals(repos: seq<Repo>, fetched: Repo -> Settled<LangMap>, lang: string)
    ensures var m := Fold(map[], repos, LangStep(fetched));
            && (lang in m <==> exists i :: 0 <= i < |repos| && fetched(repos[i]).Fulfilled? && lang in fetched(repos[i]).value)
            && Bytes(m, lang) == Sum(seq(|repos|, i requires 0 <= i < |repos| => Contribution(fetched(repos[i]), lang)))
    decreases |repos|
  {
    if |repos| > 0 {
      var init := repos[..|repos| - 1];
      LanguageTotals(init, fetched, lang);
      assert seq(|repos|, i requires 0 <= i < |repos| => Contribution(fetched(repos[i]), lang))[..|repos| - 1]
          == seq(|init|, i requires 0 <= i < |init| => Contribution(fetched(init[i]), lang));
      var last := fetched(repos[|repos| - 1]);
      if (exists i :: 0 <= i < |repos| && fetched(repos[i]).Fulfilled? && lang in fetched(repos[i]).value)
         && !(last.Fulfilled? && lang in last.value) {
        var i :| 0 <= i < |repos| && fetched(repos[i]).Fulfilled? && lang in fetched(repos[i]).value;
        assert init[i] == repos[i];
      }
    }
  }

  lemma AddBytesCommutes(a: LangMap, x: Settled<LangMap>, y: Settled<LangMap>)
    ensures AddBytes(AddBytes(a, x), y) == AddBytes(AddBytes(a, y), x)
  {
    var l := AddBytes(AddBytes(a, x), y);
    var r := AddBytes(AddBytes(a, y), x);
    assert l.Keys == r.Keys;
    forall lang | lang in l ensures l[lang] == r[lang] {
      assert Bytes(l, lang) == Bytes(r, lang);
    }
  }

  /** The merged map does not depend on the order the fetches settle in. */
  lemma LanguagesOrderFree(a: seq<Repo>, b: seq<Repo>, fetched: Repo -> Settled<LangMap>)
    requires multiset(a) == multiset(b)
    ensures Fold(map[], a, LangStep(fetched)) == Fold(map[], b, LangStep(fetched))
  {
    var step := LangStep(fetched);
    forall acc: LangMap, x: Repo, y: Repo ensures step(step(acc, x), y) == step(step(acc, y), x) {
      AddBytesCommutes(acc, fetched(x), fetched(y));
    }
    FoldPermutation(map[], a, b, step);
  }
}

=== FILE: link_header.dfy ===
/** The simplified parser of the HTTP `Link` response header (the serialisation of
    section 3 of RFC 8288) used to follow GitHub's pagination: the header is cut at
    every comma and each part is matched against `<(.*)>; rel="(.*)"`. */
module LinkHeader {
  import opened Wrappers

  /** The characters a JavaScript regular-expression `.` does not match. */
  predicate IsLineTerminator(c: char) {
    c == '\n' || c == '\r' || c == '\U{2028}' || c == '\U{2029}'
  }

  // ---------------------------------------------------------------------------
  // String.prototype.split with a one-character separator
  // ---------------------------------------------------------------------------

  /** Inverse of `Split`: the parts glued back together with the separator. */
  function Join(parts: seq<string>, sep: char): string
    decreases |parts|
  {
    if |parts| == 0 then ""
    else if |parts| == 1 then parts[0]
    else parts[0] + [sep] + Join(parts[1..], sep)
  }

  /** Index of the first `c` in `s`, or `|s|` when there is none. */
  function IndexOf(s: string, c: char): (i: nat)
    ensures i <= |s|
    ensures i < |s| ==> s[i] == c
    ensures forall t :: 0 <= t < i ==> s[t] != c
  {
    if |s| == 0 then 0
    else if s[0] == c then 0
    else 1 + IndexOf(s[1..], c)
  }

  /** `s.split(sep)`: every separator ends a part, so n separators give n + 1
      parts, empty parts included, and gluing them back gives `s`. */
  function Split(s: string, sep: char): (parts: seq<string>)
    ensures |parts| >= 1
    ensures forall i :: 0 <= i < |parts| ==> sep !in parts[i]
    ensures Join(parts, sep) == s
    decreases |s|
  {
    var i := IndexOf(s, sep);
    if i == |s| then [s]
    else
      var rest := Split(s[i + 1..], sep);
      assert ([s[..i]] + rest)[1..] == rest;
      assert s == s[..i] + [sep] + s[i + 1..];
      [s[..i]] + rest
  }

  // ---------------------------------------------------------------------------
  // The regular expression  <(.*)>; rel="(.*)"
  // ---------------------------------------------------------------------------

  /** The literal text between the two capture groups. */
  const RelInfix: string := ">; rel=\""

  predicate InfixAt(p: string, t: int) {
    0 <= t && t + |RelInfix| <= |p| && p[t..t + |RelInfix|] == RelInfix
  }

  /** `p[i..k+1]` is a match of the expression: `<` at `i`, the first group
      `p[i+1..j]`, the literal infix at `j`, the second group `p[j+8..k]` and the
      closing `"` at `k`; neither group crosses a line terminator. */
  ghost predicate IsLinkMatch(p: string, i: int, j: int, k: int) {
    && 0 <= i < j
    && j + |RelInfix| <= k < |p|
    && p[i] == '<'
    && InfixAt(p, j)
    && p[k] == '"'
    && (forall t :: i < t < k ==> !IsLineTerminator(p[t]))
  }

  /** The match `String.prototype.match` reports: the leftmost start, and among
      matches starting there the longest first group, then the longest second
      group (both groups are greedy). */
  ghost predicate IsSelectedMatch(p: string, i: int, j: int, k: int) {
    && IsLinkMatch(p, i, j, k)
    && forall i', j', k' :: IsLinkMatch(p, i', j', k') ==>
         i < i' || (i == i' && (j' < j || (j' == j && k' <= k)))
  }

  /** First line terminator at or after `from`, or `|p|`. */
  function LineEnd(p: string, from: nat): (e: nat)
    requires from <= |p|
    ensures from <= e <= |p|
    ensures e < |p| ==> IsLineTerminator(p[e])
    ensures forall t :: from <= t < e ==> !IsLineTerminator(p[t])
    decreases |p| - from
  {
    if from == |p| || IsLineTerminator(p[from]) then from else LineEnd(p, from + 1)
  }

  /** Last index in `[lo, hi)` holding `c`. */
  function LastIndex(p: string, c: char, lo: nat, hi: nat): (r: Option<nat>)
    requires lo <= hi <= |p|
    ensures r.Some? ==> lo <= r.value < hi && p[r.value] == c
    ensures r.Some? ==> forall t :: r.value < t < hi ==> p[t] != c
    ensures r.None? ==> forall t :: lo <= t < hi ==> p[t] != c
    decreases hi - lo
  {
    if lo == hi then None
    else if p[hi - 1] == c then Some(hi - 1)
    else LastIndex(p, c, lo, hi - 1)
  }

  /** Last index in `[lo, hi]` where the infix starts. */
  function LastInfix(p: string, lo: nat, hi: int): (r: Option<nat>)
    requires hi + |RelInfix| <= |p|
    ensures r.Some? ==> lo <= r.value <= hi && InfixAt(p, r.value)
    ensures r.Some? ==> forall t :: r.value < t <= hi ==> !InfixAt(p, t)
    ensures r.None? ==> forall t :: lo <= t <= hi ==> !InfixAt(p, t)
    decreases if hi < lo then 0 else hi - lo + 1
  {
    if hi < lo then None
    else if InfixAt(p, hi) then Some(hi)
    else LastInfix(p, lo, hi - 1)
  }

  /** The greedy match starting at `i`, as `(j, k)`. */
  function MatchAt(p: string, i: nat): (r: Option<(nat, nat)>)
    requires i < |p|
    ensures r.Some? ==> IsLinkMatch(p, i, r.value.0, r.value.1)
    ensures r.Some? ==> forall j, k :: IsLinkMatch(p, i, j, k) ==>
                          j < r.value.0 || (j == r.value.0 && k <= r.value.1)
    ensures r.None? ==> forall j, k :: !IsLinkMatch(p, i, j, k)
  {
    if p[i] != '<' then None
    else
      var e := LineEnd(p, i + 1);
      match LastIndex(p, '"', i + 1, e)
      case None => None
      case Some(q) =>
        match LastInfix(p, i + 1, q - |RelInfix|)
        case None => None
        case Some(j) => Some((j, q))
  }

  /** The selected match among those starting at or after `from`. */
  function FindMatch(p: string, from: nat): (r: Option<(nat, nat, nat)>)
    requires from <= |p|
    ensures r.Some? ==> from <= r.value.0 && IsLinkMatch(p, r.value.0, r.value.1, r.value.2)
    ensures r.Some? ==> forall i', j', k' :: from <= i' && IsLinkMatch(p, i', j', k') ==>
                          r.value.0 < i' || (r.value.0 == i' && (j' < r.value.1 || (j' == r.value.1 && k' <= r.value.2)))
    ensures r.None? ==> forall i', j', k' :: from <= i' ==> !IsLinkMatch(p, i', j', k')
    decreases |p| - from
  {
    if from == |p| then None
    else match MatchAt(p, from)
      case Some((j, k)) => Some((from, j, k))
      case None => FindMatch(p, from + 1)
  }

  /** One `<url>; rel="name"` link. */
  datatype Link = Link(url: string, rel: string)

  /** `part.match(/<(.*)>; rel="(.*)"/)`, reduced to its two groups. */
  function MatchLink(part: string): (m: Option<Link>)
    ensures m.Some? <==> exists i, j, k :: IsLinkMatch(part, i, j, k)
    ensures m.Some? ==> exists i, j, k :: IsSelectedMatch(part, i, j, k)
                          && m.value == Link(part[i + 1..j], part[j + |RelInfix|..k])
  {
    match FindMatch(part, 0)
    case None => None
    case Some((i, j, k)) =>
      assert IsSelectedMatch(part, i, j, k);
      Some(Link(part[i + 1..j], part[j + |RelInfix|..k]))
  }

  // ---------------------------------------------------------------------------
  // parseLinkHeader
  // ---------------------------------------------------------------------------

  /** Each part's match, in order. */
  function Matches(parts: seq<string>): (ms: seq<Option<Link>>)
    ensures |ms| == |parts| && forall i :: 0 <= i < |parts| ==> ms[i] == MatchLink(parts[i])
  {
    seq(|parts|, i requires 0 <= i < |parts| => MatchLink(parts[i]))
  }

  /** `parts[i]` matches and names relation `rel`. */
  ghost predicate NamesRel(parts: seq<string>, i: int, rel: string) {
    0 <= i < |parts| && MatchLink(parts[i]).Some? && MatchLink(parts[i]).value.rel == rel
  }

  /** The `i`-th match names relation `rel`. */
  ghost predicate Names(ms: seq<Option<Link>>, i: int, rel: string) {
    0 <= i < |ms| && ms[i].Some? && ms[i].value.rel == rel
  }

  /** The matches folded in order into a relation map: each match writes its
      relation, so a later match naming the same relation overwrites an
      earlier one; parts that did not match are skipped. */
  function Collect(ms: seq<Option<Link>>): map<string, string>
    decreases |ms|
  {
    if |ms| == 0 then map[]
    else
      var rels := Collect(ms[..|ms| - 1]);
      match ms[|ms| - 1]
      case None => rels
      case Some(l) => rels[l.rel := l.url]
  }

  /** A relation is collected exactly when some match names it. */
  lemma {:induction false} CollectKeys(ms: seq<Option<Link>>)
    ensures forall rel :: rel in Collect(ms) <==> exists i :: Names(ms, i, rel)
    decreases |ms|
  {
    if |ms| > 0 {
      var init := ms[..|ms| - 1];
      CollectKeys(init);
      forall rel ensures rel in Collect(ms) <==> exists i :: Names(ms, i, rel) {
        if !Names(ms, |ms| - 1, rel) {
          assert rel in Collect(ms) <==> rel in Collect(init);
          if i :| Names(ms, i, rel) {
            assert init[i] == ms[i];
            assert Names(init, i, rel);
          }
          if i :| Names(init, i, rel) {
            assert Names(ms, i, rel);
          }
        }
      }
    }
  }

  /** The URL stored for a relation is the one of the last match naming it. */
  lemma {:induction false} CollectLastWins(ms: seq<Option<Link>>, i: int, rel: string)
    requires Names(ms, i, rel)
    requires forall i' :: i < i' ==> !Names(ms, i', rel)
    ensures rel in Collect(ms) && Collect(ms)[rel] == ms[i].value.url
    decreases |ms|
  {
    var init := ms[..|ms| - 1];
    if i < |ms| - 1 {
      forall i' | i < i' ensures !Names(init, i', rel) {
        if i' < |ms| - 1 {
          assert init[i'] == ms[i'];
          assert !Names(ms, i', rel);
        }
      }
      assert init[i] == ms[i];
      CollectLastWins(init, i, rel);
      assert !Names(ms, |ms| - 1, rel);
    }
  }

  /** `parseLinkHeader(link)`: a missing or empty header gives no relations;
      otherwise the header is split at every comma and the parts collected. */
  function ParseLinkHeader(link: Option<string>): (rels: map<string, string>)
    ensures link.None? || link == Some("") ==> rels == map[]
  {
    if link.None? || link.value == "" then map[] else Collect(Matches(Split(link.value, ',')))
  }

  /** The matches of the parts name what the parts name. */
  lemma MatchesName(parts: seq<string>, ms: seq<Option<Link>>)
    requires ms == Matches(parts)
    ensures forall i, rel :: NamesRel(parts, i, rel) <==> Names(ms, i, rel)
  {
  }

  /** A relation is present exactly when some comma-separated part of the header
      matches and names it, and its URL is that of the last such part. */
  lemma ParseLinkHeaderRels(link: string)
    ensures var rels := ParseLinkHeader(Some(link));
            var parts := Split(link, ',');
            && (forall rel :: rel in rels <==> exists i :: NamesRel(parts, i, rel))
            && (forall rel, i :: NamesRel(parts, i, rel) && (forall i' :: i < i' ==> !NamesRel(parts, i', rel))
                  ==> rel in rels && rels[rel] == MatchLink(parts[i]).value.url)
  {
    var rels := ParseLinkHeader(Some(link));
    var parts := Split(link, ',');
    if link == "" {
      assert parts == [""];
      assert forall i, rel :: !NamesRel(parts, i, rel);
    } else {
      var ms := Matches(parts);
      assert rels == Collect(ms);
      MatchesName(parts, ms);
      CollectKeys(ms);
      forall rel ensures rel in rels <==> exists i :: NamesRel(parts, i, rel) {
        if i :| Names(ms, i, rel) {
          assert NamesRel(parts, i, rel);
        }
      }
      forall rel, i | NamesRel(parts, i, rel) && (forall i' :: i < i' ==> !NamesRel(parts, i', rel))
        ensures rel in rels && rels[rel] == MatchLink(parts[i]).value.url
      {
        CollectLastWins(ms, i, rel);
      }
    }
  }

  /** The pager's `if (!link.next) break;`: a `next` relation with a non-empty
      (truthy) URL. */
  predicate HasNext(link: Option<string>) {
    var rels := ParseLinkHeader(link);
    "next" in rels && rels["next"] != ""
  }

  /** Among the parts naming `rel`, there is a last one. */
  lemma {:induction false} LastNaming(parts: seq<string>, rel: string, i: int)
    requires NamesRel(parts, i, rel)
    ensures exists j :: NamesRel(parts, j, rel) && forall j' :: j < j' ==> !NamesRel(parts, j', rel)
    decreases |parts| - i
  {
    if exists j' :: i < j' && NamesRel(parts, j', rel) {
      var j' :| i < j' && NamesRel(parts, j', rel);
      LastNaming(parts, rel, j');
    }
  }

  /** The pager goes on exactly when the last part of the header that names
      `next` carries a non-empty URL; no header never goes on. */
  lemma HasNextIff(link: Option<string>)
    ensures link.None? ==> !HasNext(link)
    ensures link.Some? ==>
              var parts := Split(link.value, ',');
              (HasNext(link) <==>
                 exists i :: NamesRel(parts, i, "next") && (forall i' :: i < i' ==> !NamesRel(parts, i', "next"))
                             && MatchLink(parts[i]).value.url != "")
  {
    if link.Some? {
      var parts := Split(link.value, ',');
      ParseLinkHeaderRels(link.value);
      if HasNext(link) {
        assert exists i :: NamesRel(parts, i, "next");
        var i :| NamesRel(parts, i, "next");
        LastNaming(parts, "next", i);
      }
    }
  }
}

=== FILE: metrics_route.dfy ===
/** The GitHub metrics route (`GET /api/github/metrics`): a per-username cache
    in front of a fan-out of GitHub requests whose answers are folded into one
    payload of totals, recent repositories, language bytes and an optional
    contribution calendar. */
module MetricsRoute {
  import opened Wrappers
  import opened Seqs
  import opened Upstream
  import opened Repos
  import opened Pager
  import opened CommitCount
  import opened Languages
  import opened Batching
  import opened Heatmap

  /** Ten minutes. */
  const CacheTtlMs: int := 10 * 60 * 1000
  const DefaultUsername: string := "lcmiles"
  /** Only the first 30 listed repositories have their commits counted. */
  const CommitRepoLimit: nat := 30

  // ---------------------------------------------------------------------------
  // The request
  // ---------------------------------------------------------------------------

  /** The query parameters the route reads; `None` is a parameter that is
      absent. */
  datatype Query = Query(username: Option<string>, refresh: Option<string>)

  /** `searchParams.get('username') || 'lcmiles'`: an absent or empty
      parameter falls back to the site owner. */
  function Username(q: Query): (u: string)
    ensures u != ""
    ensures q.username.Some? && q.username.value != "" ==> u == q.username.value
    ensures q.username.None? || q.username.value == "" ==> u == DefaultUsername
  {
    if q.username.Some? && q.username.value != "" then q.username.value else DefaultUsername
  }

  /** `searchParams.get('refresh') === '1'`. */
  predicate Refresh(q: Query) {
    q.refresh == Some("1")
  }

  // ---------------------------------------------------------------------------
  // What GitHub answers
  // ---------------------------------------------------------------------------

  /** The profile fields copied into the payload; an absent one is `None`. */
  datatype User = User(publicRepos: Option<int>, followers: Option<int>, following: Option<int>)

  datatype UserBody = UserJson(user: User) | UserNotJson

  /** The profile request: it carries the rate-limit headers the route
      reports when the request fails. */
  datatype UserReply =
    | UserUnreachable
    | UserReply(status: int, remaining: Option<string>, reset: Option<string>, body: UserBody)

  /** A GraphQL answer: `data` with the calendar when every step of the
      `user.contributionsCollection.contributionCalendar` path is present,
      an `errors` member, or text that is not JSON. */
  datatype GraphQLBody = GraphQLData(calendar: Option<Calendar>) | GraphQLErrors | GraphQLNotJson

  /** The search for pull requests: `total_count` when the JSON has one. */
  datatype SearchBody = SearchJson(totalCount: Option<int>) | SearchNotJson

  /** Every answer one computation of the payload receives. Per-repository
      answers are looked up by repository name. */
  datatype Replies = Replies(
    user: UserReply,
    pages: seq<RepoPage>,
    languages: string -> LangFetch,
    commits: string -> CommitFetch,
    graphql: Fetch<GraphQLBody>,
    search: Fetch<SearchBody>)

  // ---------------------------------------------------------------------------
  // The optional, token-only parts
  // ---------------------------------------------------------------------------

  /** `ghGraphQL` for the contribution calendar: without a token it is not
      asked and gives nothing; a failed status or a GraphQL error gives
      nothing; a network failure or a body that is not JSON throws. */
  function CalendarOf(token: Option<string>, f: Fetch<GraphQLBody>): (r: Settled<Option<Calendar>>)
    ensures !HasToken(token) ==> r == Fulfilled(None)
    ensures r.Rejected? <==> HasToken(token) && (f.NetworkError? || (IsOk(f.status) && f.body.GraphQLNotJson?))
    ensures r.Fulfilled? && r.value.Some? ==>
              HasToken(token) && f.Response? && IsOk(f.status) && f.body == GraphQLData(r.value)
    ensures HasToken(token) && f.Response? && IsOk(f.status) && f.body.GraphQLData? ==>
              r == Fulfilled(f.body.calendar)
    ensures HasToken(token) && f.Response? && (!IsOk(f.status) || f.body.GraphQLErrors?) ==>
              r == Fulfilled(None)
  {
    if !HasToken(token) then Fulfilled(None)
    else match f
      case NetworkError => Rejected
      case Response(status, _, body) =>
        if !IsOk(status) then Fulfilled(None)
        else match body
          case GraphQLData(cal) => Fulfilled(cal)
          case GraphQLErrors => Fulfilled(None)
          case GraphQLNotJson => Rejected
  }

  /** The pull-request count: 0 without a token or on a failed status,
      otherwise `total_count || 0`; a network failure or a body that is not
      JSON throws. */
  function PullRequests(token: Option<string>, f: Fetch<SearchBody>): (r: Settled<int>)
    ensures !HasToken(token) ==> r == Fulfilled(0)
    ensures r.Rejected? <==> HasToken(token) && (f.NetworkError? || (IsOk(f.status) && f.body.SearchNotJson?))
    ensures r.Fulfilled? && r.value != 0 ==>
              HasToken(token) && f.Response? && IsOk(f.status) && f.body == SearchJson(Some(r.value))
    ensures HasToken(token) && f.Response? && IsOk(f.status) && f.body.SearchJson? ==>
              r == Fulfilled(OrZero(f.body.totalCount))
    ensures HasToken(token) && f.Response? && !IsOk(f.status) ==> r == Fulfilled(0)
  {
    if !HasToken(token) then Fulfilled(0)
    else match f
      case NetworkError => Rejected
      case Response(status, _, body) =>
        if !IsOk(status) then Fulfilled(0)
        else match body
          case SearchJson(count) => Fulfilled(OrZero(count))
          case SearchNotJson => Rejected
  }

  // ---------------------------------------------------------------------------
  // The folds over the listing
  // ---------------------------------------------------------------------------

  /** How the languages fetch of a repository settles. */
  function LanguagesSettled(languages: string -> LangFetch): Repo -> Settled<LangMap> {
    (r: Repo) => FetchRepoLanguages(languages(r.name))
  }

  /** What a repository adds to the commit total: its count, or 0 when the
      count's fetch rejected. */
  function CommitsAdded(commits: string -> CommitFetch): Repo -> int {
    (r: Repo) => match FetchCommitCount(commits(r.name))
      case Fulfilled(n) => n
      case Rejected => 0
  }

  /** `allLangs`: the batched merge of every repository's language bytes. A
      language is present exactly when some repository's fetch reports it,
      and its total is the sum of what each one reports. */
  function LanguageBytes(repos: seq<Repo>, languages: string -> LangFetch): (m: LangMap)
    ensures forall lang :: lang in m <==>
              exists i :: 0 <= i < |repos| && LanguagesSettled(languages)(repos[i]).Fulfilled?
                          && lang in LanguagesSettled(languages)(repos[i]).value
    ensures forall lang :: Bytes(m, lang) ==
              Sum(seq(|repos|, i requires 0 <= i < |repos| => Contribution(LanguagesSettled(languages)(repos[i]), lang)))
  {
    var fetched := LanguagesSettled(languages);
    var m := Batched(map[], repos, LangStep(fetched));
    forall lang ensures
      && (lang in m <==> exists i :: 0 <= i < |repos| && fetched(repos[i]).Fulfilled? && lang in fetched(repos[i]).value)
      && Bytes(m, lang) == Sum(seq(|repos|, i requires 0 <= i < |repos| => Contribution(fetched(repos[i]), lang)))
    {
      LanguageTotals(repos, fetched, lang);
    }
    m
  }

  /** `totalCommits`: the batched sum of the commit counts of the first 30
      repositories of the listing. */
  function CommitTotal(repos: seq<Repo>, commits: string -> CommitFetch): (n: int)
    ensures var targets := Take(repos, CommitRepoLimit);
            n == Sum(FieldValues(targets, CommitsAdded(commits)))
  {
    var targets := Take(repos, CommitRepoLimit);
    TotalIsSum(targets, CommitsAdded(commits));
    Batched(0, targets, TotalStep(CommitsAdded(commits)))
  }

  // ---------------------------------------------------------------------------
  // The payload and the response
  // ---------------------------------------------------------------------------

  datatype Stats = Stats(
    publicRepos: Option<int>,
    followers: Option<int>,
    following: Option<int>,
    totalStars: int,
    totalForks: int,
    totalIssues: int,
    totalPrs: int,
    totalCommits: int)

  datatype Payload = Payload(
    stats: Stats,
    repos: seq<Repo>,
    languages: LangMap,
    calendar: Option<Calendar>)

  /** Why the route answered 500. */
  datatype Failure =
    | UserNetworkFailure     // the profile request threw
    | UserUnreadable         // the profile body is not JSON
    | ListingThrew(failure: ListingFailure)
    | CalendarThrew
    | SearchThrew

  datatype Response =
    | Metrics(cached: bool, payload: Payload)                                  // 200
    | UserLookupFailed(status: int, remaining: Option<string>, reset: Option<string>)
    | ServerError(failure: Failure)                                            // 500
    | ListingUnfinished   // every modelled page announced a further one

  /** The payload built from a profile, a complete listing, and the settled
      optional parts. */
  function Assemble(user: User, repos: seq<Repo>, rep: Replies, calendar: Option<Calendar>, prs: int): (p: Payload)
    ensures p.stats.totalStars == Sum(FieldValues(repos, Stars))
    ensures p.stats.totalForks == Sum(FieldValues(repos, Forks))
    ensures p.stats.totalIssues == Sum(FieldValues(repos, Issues))
    ensures p.stats.publicRepos == user.publicRepos && p.stats.followers == user.followers
    ensures p.stats.following == user.following
    ensures p.stats.totalPrs == prs && p.calendar == calendar
  {
    TotalIsSum(repos, Stars);
    TotalIsSum(repos, Forks);
    TotalIsSum(repos, Issues);
    Payload(
      Stats(user.publicRepos, user.followers, user.following,
            Total(repos, Stars), Total(repos, Forks), Total(repos, Issues),
            prs, CommitTotal(repos, rep.commits)),
      RecentRepos(repos),
      LanguageBytes(repos, rep.languages),
      calendar)
  }

  /** The profile request answered with a success status and a JSON body. */
  predicate ProfileRead(rep: Replies) {
    rep.user.UserReply? && IsOk(rep.user.status) && rep.user.body.UserJson?
  }

  /** The uncached path of `GET`, in the order the route awaits its requests:
      the profile, the listing, then (with a token) the calendar and the
      pull-request search. */
  function Compute(token: Option<string>, rep: Replies): (r: Response)
    ensures !r.Metrics? || !r.cached
    ensures r.Metrics? ==> ProfileRead(rep) && FetchAllRepos(rep.pages).Listed?
  {
    match rep.user
    case UserUnreachable => ServerError(UserNetworkFailure)
    case UserReply(status, remaining, reset, body) =>
      if !IsOk(status) then UserLookupFailed(status, remaining, reset)
      else match body
        case UserNotJson => ServerError(UserUnreadable)
        case UserJson(user) =>
          match FetchAllRepos(rep.pages)
          case Unanswered => ListingUnfinished
          case ListingFailed(f, _) => ServerError(ListingThrew(f))
          case Listed(repos, _) =>
            match CalendarOf(token, rep.graphql)
            case Rejected => ServerError(CalendarThrew)
            case Fulfilled(calendar) =>
              match PullRequests(token, rep.search)
              case Rejected => ServerError(SearchThrew)
              case Fulfilled(prs) => Metrics(false, Assemble(user, repos, rep, calendar, prs))
  }

  /** Each answer of the uncached path, in the order the route awaits its
      requests: a failed profile status answers with that status and the
      rate-limit headers; an unreachable or unreadable profile is a server
      error; after a readable profile, a failed listing reports that failure,
      an endless one is unfinished, a thrown calendar or search is a server
      error, and when all of them settle the answer is a payload. */
  lemma ComputeOutcomes(token: Option<string>, rep: Replies)
    ensures var r := Compute(token, rep);
            && (r.UserLookupFailed? <==> rep.user.UserReply? && !IsOk(rep.user.status))
            && (r.UserLookupFailed? ==>
                  r == UserLookupFailed(rep.user.status, rep.user.remaining, rep.user.reset))
            && (r == ServerError(UserNetworkFailure) <==> rep.user.UserUnreachable?)
            && (r.ServerError? && r.failure.ListingThrew? ==>
                  FetchAllRepos(rep.pages).ListingFailed? && FetchAllRepos(rep.pages).failure == r.failure.failure)
            && (!HasToken(token) ==> !(r == ServerError(CalendarThrew) || r == ServerError(SearchThrew)))
            && (rep.user.UserReply? && IsOk(rep.user.status) && rep.user.body.UserNotJson? ==>
                  r == ServerError(UserUnreadable))
            && (ProfileRead(rep) && FetchAllRepos(rep.pages).ListingFailed? ==>
                  r == ServerError(ListingThrew(FetchAllRepos(rep.pages).failure)))
            && (ProfileRead(rep) && FetchAllRepos(rep.pages).Unanswered? ==> r == ListingUnfinished)
            && (ProfileRead(rep) && FetchAllRepos(rep.pages).Listed? && CalendarOf(token, rep.graphql).Rejected? ==>
                  r == ServerError(CalendarThrew))
            && (ProfileRead(rep) && FetchAllRepos(rep.pages).Listed? && CalendarOf(token, rep.graphql).Fulfilled?
                && PullRequests(token, rep.search).Rejected? ==>
                  r == ServerError(SearchThrew))
            && (ProfileRead(rep) && FetchAllRepos(rep.pages).Listed? && CalendarOf(token, rep.graphql).Fulfilled?
                && PullRequests(token, rep.search).Fulfilled? ==>
                  r.Metrics?)
  {
  }

  /** Without a token the route still answers with a payload whenever the
      profile is readable and the listing completes: the calendar and the
      pull-request search are never asked, so neither can fail. */
  lemma WithoutTokenComputes(token: Option<string>, rep: Replies)
    requires !HasToken(token) && ProfileRead(rep) && FetchAllRepos(rep.pages).Listed?
    ensures Compute(token, rep).Metrics?
    ensures Compute(token, rep).payload.calendar.None? && Compute(token, rep).payload.stats.totalPrs == 0
  {
  }

  /** The payload of a computed answer, field by field. */
  lemma ComputedPayload(token: Option<string>, rep: Replies)
    requires Compute(token, rep).Metrics?
    ensures var p := Compute(token, rep).payload;
            var repos := FetchAllRepos(rep.pages).repos;
            && p.stats.publicRepos == rep.user.body.user.publicRepos
            && p.stats.followers == rep.user.body.user.followers
            && p.stats.following == rep.user.body.user.following
            && p.stats.totalStars == Sum(FieldValues(repos, Stars))
            && p.stats.totalForks == Sum(FieldValues(repos, Forks))
            && p.stats.totalIssues == Sum(FieldValues(repos, Issues))
            && p.stats.totalCommits == CommitTotal(repos, rep.commits)
            && p.repos == RecentRepos(repos)
            && p.languages == LanguageBytes(repos, rep.languages)
            && Fulfilled(p.calendar) == CalendarOf(token, rep.graphql)
            && Fulfilled(p.stats.totalPrs) == PullRequests(token, rep.search)
            && (!HasToken(token) ==> p.calendar.None? && p.stats.totalPrs == 0)
  {
  }

  // ---------------------------------------------------------------------------
  // The cache
  // ---------------------------------------------------------------------------

  datatype CacheEntry = CacheEntry(expires: int, payload: Payload)

  /** The module-level cache, keyed by username. */
  type Cache = map<string, CacheEntry>

  /** A cached payload is served: no refresh was asked for and the entry for
      the username expires strictly after `now`. */
  predicate ServesCached(cache: Cache, q: Query, now: int) {
    !Refresh(q) && Username(q) in cache && cache[Username(q)].expires > now
  }

  /** `GET(req)` at time `now` with the server's token: the response and the
      cache afterwards. A cache hit answers from the cache and leaves it alone;
      otherwise the payload is computed, and only a successful one is stored,
      under the username, for ten minutes. */
  function Get(cache: Cache, q: Query, now: int, token: Option<string>, rep: Replies): (r: (Response, Cache))
    ensures ServesCached(cache, q, now) ==> r == (Metrics(true, cache[Username(q)].payload), cache)
    ensures !ServesCached(cache, q, now) ==> r.0 == Compute(token, rep)
    ensures r.0.Metrics? && !r.0.cached ==>
              r.1 == cache[Username(q) := CacheEntry(now + CacheTtlMs, r.0.payload)]
    ensures !r.0.Metrics? ==> r.1 == cache
    ensures r.1.Keys == cache.Keys || r.1.Keys == cache.Keys + {Username(q)}
    ensures forall k :: k in cache && k != Username(q) ==> k in r.1 && r.1[k] == cache[k]
  {
    var key := Username(q);
    if ServesCached(cache, q, now) then (Metrics(true, cache[key].payload), cache)
    else
      var resp := Compute(token, rep);
      if resp.Metrics? then (resp, cache[key := CacheEntry(now + CacheTtlMs, resp.payload)])
      else (resp, cache)
  }

  /** A response marked `cached` comes from the cache exactly when the cache
      was allowed to answer. */
  lemma CachedIff(cache: Cache, q: Query, now: int, token: Option<string>, rep: Replies)
    ensures var r := Get(cache, q, now, token, rep).0;
            r.Metrics? && r.cached <==> ServesCached(cache, q, now)
  {
  }

  /** A computed payload is served again, from the cache, to any request for
      the same username within the next ten minutes that does not ask for a
      refresh, whatever GitHub would answer then. */
  lemma StoredThenServed(cache: Cache, q: Query, now: int, token: Option<string>, rep: Replies,
                         q': Query, later: int, token': Option<string>, rep': Replies)
    requires Get(cache, q, now, token, rep).0.Metrics?
    requires !Get(cache, q, now, token, rep).0.cached
    requires Username(q') == Username(q) && !Refresh(q')
    requires now <= later < now + CacheTtlMs
    ensures var (r, c) := Get(cache, q, now, token, rep);
            Get(c, q', later, token', rep') == (Metrics(true, r.payload), c)
  {
  }

  /** An entry is not served at or after its expiry time. */
  lemma ExpiredRecomputed(cache: Cache, q: Query, now: int, token: Option<string>, rep: Replies)
    requires Username(q) in cache && cache[Username(q)].expires <= now
    ensures Get(cache, q, now, token, rep).0 == Compute(token, rep)
  {
  }

  /** A refresh always recomputes, and a failed computation is never stored. */
  lemma RefreshRecomputes(cache: Cache, q: Query, now: int, token: Option<string>, rep: Replies)
    requires Refresh(q)
    ensures Get(cache, q, now, token, rep).0 == Compute(token, rep)
    ensures !Compute(token, rep).Metrics? ==> Get(cache, q, now, token, rep).1 == cache
  {
  }

  /** An absent and an empty `username` share the site owner's cache entry. */
  lemma DefaultUserShared(cache: Cache, now: int, token: Option<string>, rep: Replies, refresh: Option<string>)
    ensures Get(cache, Query(None, refresh), now, token, rep) == Get(cache, Query(Some(""), refresh), now, token, rep)
  {
  }
}

=== FILE: pager.dfy ===
/** `fetchAllRepos`: the all-or-nothing pager that requests page 1, 2, ... of a
    user's repository listing for as long as each page's `Link` header announces
    a `next` relation. */
module Pager {
  import opened Wrappers
  import opened Upstream
  import opened LinkHeader
  import opened Repos

  /** One listing page; a `None` body is a response whose JSON is not an array
      (reading or spreading it throws). */
  type RepoPage = Fetch<Option<seq<Repo>>>

  /** Why the listing threw. */
  datatype ListingFailure =
    | HttpStatus(status: int)   // "Failed to fetch repositories: <status>"
    | NetworkFailure
    | BodyFailure

  /** `requests` counts the pages asked for. `Unanswered` means every modelled
      page announced a further one, so the listing did not end within them. */
  datatype Listing =
    | Listed(repos: seq<Repo>, requests: nat)
    | ListingFailed(failure: ListingFailure, requests: nat)
    | Unanswered

  /** A page whose repositories are collected. */
  predicate Readable(p: RepoPage) {
    p.Response? && IsOk(p.status) && p.body.Some?
  }

  /** A collected page that makes the pager request the following one. */
  predicate Continues(p: RepoPage) {
    Readable(p) && HasNext(p.link)
  }

  function FailureOf(p: RepoPage): ListingFailure {
    match p
    case NetworkError => NetworkFailure
    case Response(status, _, body) => if !IsOk(status) then HttpStatus(status) else BodyFailure
  }

  /** The repositories of the pages, in page order. */
  function Bodies(pages: seq<RepoPage>): seq<Repo>
    decreases |pages|
  {
    if |pages| == 0 then []
    else (if pages[0].Response? && pages[0].body.Some? then pages[0].body.value else []) + Bodies(pages[1..])
  }

  /** Pages 1..n-1 each announced a next page. */
  ghost predicate ContinuedBefore(pages: seq<RepoPage>, n: nat) {
    n <= |pages| && forall k :: 0 <= k < n - 1 ==> Continues(pages[k])
  }

  /** The listing ends successfully at page n. */
  ghost predicate EndsAt(pages: seq<RepoPage>, n: nat) {
    1 <= n && ContinuedBefore(pages, n) && Readable(pages[n - 1]) && !HasNext(pages[n - 1].link)
  }

  /** The listing throws at page n. */
  ghost predicate FailsAt(pages: seq<RepoPage>, n: nat) {
    1 <= n && ContinuedBefore(pages, n) && !Readable(pages[n - 1])
  }

  /** `r` is what the pager yields on `pages`: a listing that ends at the
      page it reports, with the repositories of the pages up to it; a failure
      at the first unreadable page, for that page's reason; or no end when
      every page announced a next one. */
  ghost predicate Outcome(pages: seq<RepoPage>, r: Listing) {
    && (r.Listed? ==> EndsAt(pages, r.requests) && r.repos == Bodies(pages[..r.requests]))
    && (r.ListingFailed? ==> FailsAt(pages, r.requests) && r.failure == FailureOf(pages[r.requests - 1]))
    && (r.Unanswered? ==> forall k :: 0 <= k < |pages| ==> Continues(pages[k]))
  }

  /** `fetchAllRepos(username)` over the responses to its successive page
      requests: on success, the concatenation of the pages up to the first one
      without `next`; on the first unreadable page, a failure that discards the
      pages already collected. */
  function FetchAllRepos(pages: seq<RepoPage>): (r: Listing)
    ensures Outcome(pages, r)
    decreases |pages|
  {
    if |pages| == 0 then Unanswered
    else if !Readable(pages[0]) then ListingFailed(FailureOf(pages[0]), 1)
    else if !HasNext(pages[0].link) then
      FirstPageBodies(pages);
      Listed(pages[0].body.value, 1)
    else
      var rest := FetchAllRepos(pages[1..]);
      PrependOutcome(pages, rest);
      Prepend(pages[0], rest)
  }

  /** The first page's repositories in front of the outcome of the rest, one
      more request counted. */
  function Prepend(p: RepoPage, rest: Listing): Listing
    requires Readable(p)
  {
    match rest
    case Listed(repos, n) => Listed(p.body.value + repos, n + 1)
    case ListingFailed(f, n) => ListingFailed(f, n + 1)
    case Unanswered => Unanswered
  }

  lemma PrependOutcome(pages: seq<RepoPage>, rest: Listing)
    requires |pages| > 0 && Continues(pages[0]) && Outcome(pages[1..], rest)
    ensures Outcome(pages, Prepend(pages[0], rest))
  {
    match rest
    case Listed(repos, n) => ListedStep(pages, n, repos);
    case ListingFailed(f, n) => FailedStep(pages, n, f);
    case Unanswered => UnansweredStep(pages);
  }

  lemma FirstPageBodies(pages: seq<RepoPage>)
    requires |pages| > 0 && Readable(pages[0])
    ensures Bodies(pages[..1]) == pages[0].body.value
  {
    assert Bodies(pages[..1]) == pages[0].body.value + Bodies([]);
  }

  /** A page that announces a next one, followed by a listing that ends at
      page `n` of the rest, ends at page `n + 1` with its own repositories in
      front. */
  lemma ListedStep(pages: seq<RepoPage>, n: nat, repos: seq<Repo>)
    requires |pages| > 0 && Continues(pages[0])
    requires EndsAt(pages[1..], n) && repos == Bodies(pages[1..][..n])
    ensures EndsAt(pages, n + 1) && pages[0].body.value + repos == Bodies(pages[..n + 1])
  {
    StepBack(pages, n);
    assert pages[..n + 1][1..] == pages[1..][..n];
  }

  /** A page that announces a next one, followed by a listing that fails at
      page `n` of the rest, fails at page `n + 1` for the same reason. */
  lemma FailedStep(pages: seq<RepoPage>, n: nat, f: ListingFailure)
    requires |pages| > 0 && Continues(pages[0])
    requires FailsAt(pages[1..], n) && f == FailureOf(pages[1..][n - 1])
    ensures FailsAt(pages, n + 1) && f == FailureOf(pages[n])
  {
    StepBack(pages, n);
  }

  lemma UnansweredStep(pages: seq<RepoPage>)
    requires |pages| > 0 && Continues(pages[0])
    requires forall k :: 0 <= k < |pages[1..]| ==> Continues(pages[1..][k])
    ensures forall k :: 0 <= k < |pages| ==> Continues(pages[k])
  {
    forall k | 1 <= k < |pages| ensures Continues(pages[k]) {
      assert pages[k] == pages[1..][k - 1];
    }
  }

  /** A page that announces a next one prefixes the outcome of the rest. */
  lemma StepBack(pages: seq<RepoPage>, n: nat)
    requires |pages| > 0 && Continues(pages[0])
    requires ContinuedBefore(pages[1..], n)
    ensures ContinuedBefore(pages, n + 1)
    ensures 1 <= n ==> pages[n] == pages[1..][n - 1]
  {
    forall k | 0 <= k < n ensures Continues(pages[k]) {
      if k > 0 { assert pages[k] == pages[1..][k - 1]; }
    }
  }
}

=== FILE: rate_limit.dfy ===
/** The request middleware: a fixed-window rate limiter for `/api/` routes,
    keyed by client address, allowing 30 requests per 60-second window. */
module RateLimit {
  import opened Wrappers

  const WindowMs: int := 60000
  const MaxRequests: nat := 30

  /** The counter kept for one client. */
  datatype Record = Record(count: int, resetTime: int)

  type State = map<string, Record>

  /** The parts of a request the middleware reads. */
  datatype Request = Request(path: string, forwardedFor: Option<string>, realIp: Option<string>)

  datatype Verdict = Pass | TooManyRequests   // NextResponse.next() / status 429

  /** `a || b` on optional header values: an absent or empty value is falsy. */
  function OrElse(a: Option<string>, b: string): string {
    if a.Some? && a.value != "" then a.value else b
  }

  /** The client key: `x-forwarded-for`, else `x-real-ip`, else `unknown`. */
  function ClientKey(req: Request): (key: string)
    ensures req.forwardedFor.Some? && req.forwardedFor.value != "" ==> key == req.forwardedFor.value
    ensures (req.forwardedFor.None? || req.forwardedFor == Some("")) && req.realIp.Some? && req.realIp.value != "" ==> key == req.realIp.value
    ensures (req.forwardedFor.None? || req.forwardedFor == Some("")) && (req.realIp.None? || req.realIp == Some("")) ==> key == "unknown"
  {
    OrElse(req.forwardedFor, OrElse(req.realIp, "unknown"))
  }

  const ApiPrefix: string := "/api/"

  predicate IsApi(path: string) {
    |ApiPrefix| <= |path| && path[..|ApiPrefix|] == ApiPrefix
  }

  /** Every stored counter lies in 1..30. */
  ghost predicate Valid(s: State) {
    forall k :: k in s ==> 1 <= s[k].count <= MaxRequests
  }

  /** `middleware(request)` at time `now`: requests outside `/api/` pass and
      leave the state alone. For an API request, a missing or expired record
      (strictly past its reset time) starts a new window with count 1; a record
      at the cap within its window rejects with 429 and is left unchanged;
      otherwise the count goes up by one. No other client's record changes. */
  function Middleware(s: State, req: Request, now: int): (r: (Verdict, State))
    ensures !IsApi(req.path) ==> r == (Pass, s)
    ensures IsApi(req.path) ==>
              var key := ClientKey(req);
              && r.1.Keys == s.Keys + {key}
              && (forall k :: k in s && k != key ==> r.1[k] == s[k])
              && (key !in s || now > s[key].resetTime ==> r == (Pass, s[key := Record(1, now + WindowMs)]))
              && (key in s && now <= s[key].resetTime && s[key].count >= MaxRequests ==> r == (TooManyRequests, s))
              && (key in s && now <= s[key].resetTime && s[key].count < MaxRequests ==>
                    r.0 == Pass && r.1[key] == s[key].(count := s[key].count + 1))
    ensures Valid(s) ==> Valid(r.1)
  {
    if !IsApi(req.path) then (Pass, s)
    else
      var key := ClientKey(req);
      if key !in s || now > s[key].resetTime then (Pass, s[key := Record(1, now + WindowMs)])
      else if s[key].count >= MaxRequests then (TooManyRequests, s)
      else (Pass, s[key := s[key].(count := s[key].count + 1)])
  }

  /** A sequence of requests with their arrival times. */
  datatype Arrival = Arrival(req: Request, now: int)

  /** The requests from client `key` to `/api/` that are let through. */
  function Run(s: State, arrivals: seq<Arrival>, key: string): (r: (State, nat))
    decreases |arrivals|
  {
    if |arrivals| == 0 then (s, 0)
    else
      var a := arrivals[0];
      var (v, s') := Middleware(s, a.req, a.now);
      var counted := if v == Pass && IsApi(a.req.path) && ClientKey(a.req) == key then 1 else 0;
      var (t, n) := Run(s', arrivals[1..], key);
      (t, n + counted)
  }

  /** Within one window: once a client has a record whose window ends at `reset`,
      at most `30 - count` more of its API requests pass before `reset`,
      whatever the other clients do. Together with the request that opened the
      window, at most 30 requests per client pass in a window. */
  lemma {:induction false} AtMostCapPerWindow(s: State, arrivals: seq<Arrival>, key: string)
    requires Valid(s)
    requires key in s
    requires forall i :: 0 <= i < |arrivals| ==> arrivals[i].now <= s[key].resetTime
    ensures Run(s, arrivals, key).1 <= MaxRequests - s[key].count
    ensures key in Run(s, arrivals, key).0 && Run(s, arrivals, key).0[key].resetTime == s[key].resetTime
    decreases |arrivals|
  {
    if |arrivals| > 0 {
      var a := arrivals[0];
      var (v, s') := Middleware(s, a.req, a.now);
      assert forall i :: 0 <= i < |arrivals[1..]| ==> arrivals[1..][i].now <= s'[key].resetTime by {
        forall i | 0 <= i < |arrivals[1..]| ensures arrivals[1..][i].now <= s'[key].resetTime {
          assert arrivals[1..][i] == arrivals[i + 1];
        }
      }
      AtMostCapPerWindow(s', arrivals[1..], key);
    }
  }
}

=== FILE: repos.dfy ===
/** A repository as the metrics route reads it from GitHub's repository listing,
    the star/fork/issue totals folded over the listing, and the selection of the
    most recently updated repositories. */
module Repos {
  import opened Wrappers
  import opened Seqs

  /** The fields of a listed repository the route reads. A count field the
      response leaves out is `None`; `updatedAt` is `updated_at` as milliseconds
      since the epoch. */
  datatype Repo = Repo(
    name: string,
    stars: Option<int>,
    forks: Option<int>,
    openIssues: Option<int>,
    updatedAt: int)

  /** `x || 0` on a count field. */
  function OrZero(v: Option<int>): int {
    v.GetOr(0)
  }

  function Stars(r: Repo): int { OrZero(r.stars) }
  function Forks(r: Repo): int { OrZero(r.forks) }
  function Issues(r: Repo): int { OrZero(r.openIssues) }

  /** The step `(a, r) => a + field(r)` of a running total. */
  function TotalStep(field: Repo -> int): (int, Repo) -> int {
    (a: int, r: Repo) => a + field(r)
  }

  /** `repos.reduce((a, r) => a + field(r), 0)`. */
  function Total(repos: seq<Repo>, field: Repo -> int): int {
    Fold(0, repos, TotalStep(field))
  }

  /** The field's value for each repository, in listing order. */
  function FieldValues(repos: seq<Repo>, field: Repo -> int): (vs: seq<int>)
    ensures |vs| == |repos| && forall i :: 0 <= i < |repos| ==> vs[i] == field(repos[i])
  {
    seq(|repos|, i requires 0 <= i < |repos| => field(repos[i]))
  }

  /** A total is the sum of the field over the repositories. */
  lemma {:induction false} TotalIsSum(repos: seq<Repo>, field: Repo -> int)
    ensures Total(repos, field) == Sum(FieldValues(repos, field))
    decreases |repos|
  {
    if |repos| > 0 {
      var init := repos[..|repos| - 1];
      TotalIsSum(init, field);
      assert FieldValues(repos, field)[..|repos| - 1] == FieldValues(init, field);
    }
  }

  /** Totals do not depend on the order of the listing. */
  lemma TotalPermutation(a: seq<Repo>, b: seq<Repo>, field: Repo -> int)
    requires multiset(a) == multiset(b)
    ensures Total(a, field) == Total(b, field)
  {
    var step := TotalStep(field);
    assert Commutes(step);
    FoldPermutation(0, a, b, step);
  }

  /** Totals add up over a listing split in two (for example across pages). */
  lemma TotalAppend(a: seq<Repo>, b: seq<Repo>, field: Repo -> int)
    ensures Total(a + b, field) == Total(a, field) + Total(b, field)
  {
    FoldAppend(0, a, b, TotalStep(field));
    FoldShift(Total(a, field), b, field);
  }

  lemma {:induction false} FoldShift(c: int, b: seq<Repo>, field: Repo -> int)
    ensures Fold(c, b, TotalStep(field)) == c + Total(b, field)
    decreases |b|
  {
    if |b| > 0 {
      FoldShift(c, b[..|b| - 1], field);
    }
  }

  // ---------------------------------------------------------------------------
  // recentRepos: a stable sort by updated_at, newest first, then the first six
  // ---------------------------------------------------------------------------

  const RecentCount: nat := 6

  predicate SortedNewestFirst(rs: seq<Repo>) {
    forall i, j :: 0 <= i < j < |rs| ==> rs[j].updatedAt <= rs[i].updatedAt
  }

  /** The repositories of `rs` updated at time `t`, in order. */
  function UpdatedAt(rs: seq<Repo>, t: int): seq<Repo>
    decreases |rs|
  {
    if |rs| == 0 then []
    else (if rs[0].updatedAt == t then [rs[0]] else []) + UpdatedAt(rs[1..], t)
  }

  /** No element of `rs` is newer than `b`. */
  predicate NoNewerThan(rs: seq<Repo>, b: int) {
    forall i :: 0 <= i < |rs| ==> rs[i].updatedAt <= b
  }

  /** Places `x` before the first element not newer than it. */
  function Insert(x: Repo, rs: seq<Repo>): (r: seq<Repo>)
    ensures |r| == |rs| + 1
    ensures multiset(r) == multiset(rs) + multiset{x}
    decreases |rs|
  {
    if |rs| == 0 || rs[0].updatedAt <= x.updatedAt then
      [x] + rs
    else
      assert rs == [rs[0]] + rs[1..];
      [rs[0]] + Insert(x, rs[1..])
  }

  /** Inserting an element no newer than a bound keeps every element within it. */
  lemma {:induction false} InsertBound(x: Repo, rs: seq<Repo>, b: int)
    requires NoNewerThan(rs, b) && x.updatedAt <= b
    ensures NoNewerThan(Insert(x, rs), b)
    decreases |rs|
  {
    if |rs| > 0 && x.updatedAt < rs[0].updatedAt {
      InsertBound(x, rs[1..], b);
      var r := Insert(x, rs);
      assert r == [rs[0]] + Insert(x, rs[1..]);
      forall i | 0 <= i < |r| ensures r[i].updatedAt <= b {
        if i > 0 {
          assert r[i] == Insert(x, rs[1..])[i - 1];
        }
      }
    }
  }

  /** Insertion into a sorted sequence keeps it sorted. */
  lemma {:induction false} InsertSorted(x: Repo, rs: seq<Repo>)
    requires SortedNewestFirst(rs)
    ensures SortedNewestFirst(Insert(x, rs))
    decreases |rs|
  {
    var r := Insert(x, rs);
    if |rs| == 0 || rs[0].updatedAt <= x.updatedAt {
      assert r == [x] + rs;
      forall i, j | 0 <= i < j < |r| ensures r[j].updatedAt <= r[i].updatedAt {
        assert r[j] == rs[j - 1];
        if i > 0 {
          assert r[i] == rs[i - 1];
        } else {
          assert rs[j - 1].updatedAt <= rs[0].updatedAt;
        }
      }
    } else {
      var tail := rs[1..];
      var rest := Insert(x, tail);
      assert r == [rs[0]] + rest;
      assert SortedNewestFirst(tail) by {
        forall i, j | 0 <= i < j < |tail| ensures tail[j].updatedAt <= tail[i].updatedAt {
          assert tail[i] == rs[i + 1] && tail[j] == rs[j + 1];
        }
      }
      assert NoNewerThan(tail, rs[0].updatedAt) by {
        forall i | 0 <= i < |tail| ensures tail[i].updatedAt <= rs[0].updatedAt {
          assert tail[i] == rs[i + 1];
        }
      }
      InsertSorted(x, tail);
      InsertBound(x, tail, rs[0].updatedAt);
      forall i, j | 0 <= i < j < |r| ensures r[j].updatedAt <= r[i].updatedAt {
        assert r[j] == rest[j - 1];
        if i > 0 {
          assert r[i] == rest[i - 1];
        }
      }
    }
  }

  lemma {:induction false} UpdatedAtAppend(a: seq<Repo>, b: seq<Repo>, t: int)
    ensures UpdatedAt(a + b, t) == UpdatedAt(a, t) + UpdatedAt(b, t)
    decreases |a|
  {
    if |a| > 0 {
      assert (a + b)[1..] == a[1..] + b;
      UpdatedAtAppend(a[1..], b, t);
    } else {
      assert a + b == b;
    }
  }

  lemma UpdatedAtOne(x: Repo, t: int)
    ensures UpdatedAt([x], t) == if x.updatedAt == t then [x] else []
  {
    assert [x][1..] == [];
  }

  /** Insertion puts `x` ahead of every element with its timestamp. */
  lemma {:induction false} InsertKeepsTies(x: Repo, rs: seq<Repo>, t: int)
    ensures UpdatedAt(Insert(x, rs), t) == (if x.updatedAt == t then [x] else []) + UpdatedAt(rs, t)
    decreases |rs|
  {
    UpdatedAtOne(x, t);
    if |rs| == 0 || rs[0].updatedAt <= x.updatedAt {
      assert Insert(x, rs) == [x] + rs;
      UpdatedAtAppend([x], rs, t);
    } else {
      var head := rs[0];
      var tail := rs[1..];
      var rest := Insert(x, tail);
      assert Insert(x, rs) == [head] + rest;
      InsertKeepsTies(x, tail, t);
      UpdatedAtOne(head, t);
      UpdatedAtAppend([head], rest, t);
      UpdatedAtAppend([head], tail, t);
      assert rs == [head] + tail;
    }
  }

  /** `[...repos].sort((a, b) => b.updated_at - a.updated_at)`: a permutation
      ordered newest first. */
  function SortNewestFirst(rs: seq<Repo>): (r: seq<Repo>)
    ensures |r| == |rs|
    ensures multiset(r) == multiset(rs)
    ensures SortedNewestFirst(r)
    decreases |rs|
  {
    if |rs| == 0 then []
    else
      var sorted := SortNewestFirst(rs[1..]);
      InsertSorted(rs[0], sorted);
      assert rs == [rs[0]] + rs[1..];
      Insert(rs[0], sorted)
  }

  /** The sort is stable, as `Array.prototype.sort` is: repositories with the
      same timestamp keep their listing order. */
  lemma {:induction false} SortIsStable(rs: seq<Repo>, t: int)
    ensures UpdatedAt(SortNewestFirst(rs), t) == UpdatedAt(rs, t)
    decreases |rs|
  {
    if |rs| > 0 {
      SortIsStable(rs[1..], t);
      InsertKeepsTies(rs[0], SortNewestFirst(rs[1..]), t);
      UpdatedAtAppend([rs[0]], rs[1..], t);
      assert rs == [rs[0]] + rs[1..];
    }
  }

  /** Every element past a cut of a sorted sequence is no newer than any
      element before it. */
  lemma SortedCut(s: seq<Repo>, n: nat)
    requires SortedNewestFirst(s) && n <= |s|
    ensures forall x, i :: x in multiset(s[n..]) && 0 <= i < n ==> x.updatedAt <= s[i].updatedAt
  {
    forall x, i | x in multiset(s[n..]) && 0 <= i < n ensures x.updatedAt <= s[i].updatedAt {
      assert x in s[n..];
      var j :| 0 <= j < |s[n..]| && s[n..][j] == x;
      assert s[n + j] == x;
    }
  }

  /** Cutting a sequence splits its multiset. */
  lemma CutMultiset<T>(s: seq<T>, n: nat)
    requires n <= |s|
    ensures multiset(s) - multiset(s[..n]) == multiset(s[n..])
  {
    assert s == s[..n] + s[n..];
  }

  lemma SortedPrefix(s: seq<Repo>, n: nat)
    requires SortedNewestFirst(s) && n <= |s|
    ensures SortedNewestFirst(s[..n])
  {
  }

  /** `recentRepos`: six of the listed repositories (fewer when there are fewer),
      newest first, none of the left-out ones newer than any chosen one. */
  function RecentRepos(repos: seq<Repo>): (r: seq<Repo>)
    ensures |r| == Min(RecentCount, |repos|)
    ensures multiset(r) <= multiset(repos)
    ensures SortedNewestFirst(r)
    ensures forall x, i :: x in multiset(repos) - multiset(r) && 0 <= i < |r| ==> x.updatedAt <= r[i].updatedAt
  {
    var s := SortNewestFirst(repos);
    var r := Take(s, RecentCount);
    CutMultiset(s, |r|);
    assert r == s[..|r|];
    SortedCut(s, |r|);
    SortedPrefix(s, |r|);
    r
  }
}

=== FILE: seqs.dfy ===
/** Sequence helpers shared by the folds of the model. */
module Seqs {
  import opened Wrappers

  function Min(a: int, b: int): int {
    if a <= b then a else b
  }

  /** The sum of a sequence of integers, folded from the left as `reduce` does. */
  function Sum(xs: seq<int>): int
    decreases |xs|
  {
    if |xs| == 0 then 0 else Sum(xs[..|xs| - 1]) + xs[|xs| - 1]
  }

  lemma {:induction false} SumAppend(a: seq<int>, b: seq<int>)
    ensures Sum(a + b) == Sum(a) + Sum(b)
    decreases |b|
  {
    if |b| == 0 {
      assert a + b == a;
    } else {
      assert (a + b)[..|a + b| - 1] == a + b[..|b| - 1];
      SumAppend(a, b[..|b| - 1]);
    }
  }

  /** Concatenation of a sequence of sequences, in order. */
  function Flatten<T>(ss: seq<seq<T>>): seq<T>
    decreases |ss|
  {
    if |ss| == 0 then [] else ss[0] + Flatten(ss[1..])
  }

  /** The first `min(n, |s|)` elements, as JavaScript's `s.slice(0, n)`. */
  function Take<T>(s: seq<T>, n: nat): (r: seq<T>)
    ensures |r| == Min(n, |s|)
    ensures forall i :: 0 <= i < |r| ==> r[i] == s[i]
  {
    if n <= |s| then s[..n] else s
  }

  /** The last `min(n, |s|)` elements, as JavaScript's `s.slice(-n)` for n > 0. */
  function TakeLast<T>(s: seq<T>, n: nat): (r: seq<T>)
    ensures |r| == Min(n, |s|)
    ensures r == s[|s| - |r|..]
  {
    if n <= |s| then s[|s| - n..] else s
  }

  /** Left fold, as JavaScript's `reduce` and `for ... of` accumulation loops. */
  function Fold<T, A>(acc: A, items: seq<T>, step: (A, T) -> A): A
    decreases |items|
  {
    if |items| == 0 then acc else step(Fold(acc, items[..|items| - 1], step), items[|items| - 1])
  }

  lemma {:induction false} FoldAppend<T, A>(acc: A, a: seq<T>, b: seq<T>, step: (A, T) -> A)
    ensures Fold(acc, a + b, step) == Fold(Fold(acc, a, step), b, step)
    decreases |b|
  {
    if |b| == 0 {
      assert a + b == a;
    } else {
      assert (a + b)[..|a + b| - 1] == a + b[..|b| - 1];
      FoldAppend(acc, a, b[..|b| - 1], step);
    }
  }

  /** Applying two items in either order gives the same accumulator. */
  ghost predicate Commutes<T(!new), A(!new)>(step: (A, T) -> A) {
    forall a: A, x: T, y: T :: step(step(a, x), y) == step(step(a, y), x)
  }

  /** With a commuting step, an item can be moved to the end of the fold. */
  lemma {:induction false} FoldMoveLast<T(!new), A(!new)>(acc: A, a: seq<T>, x: T, b: seq<T>, step: (A, T) -> A)
    requires Commutes(step)
    ensures Fold(acc, a + [x] + b, step) == Fold(acc, a + b + [x], step)
    decreases |b|
  {
    if |b| > 0 {
      var b' := b[..|b| - 1];
      var y := b[|b| - 1];
      assert a + [x] + b == (a + [x] + b') + [y];
      assert (a + [x] + b)[..|a + [x] + b| - 1] == a + [x] + b';
      FoldMoveLast(acc, a, x, b', step);
      assert (a + b' + [x])[..|a + b' + [x]| - 1] == a + b';
      assert (a + b + [x])[..|a + b + [x]| - 1] == a + b;
      assert (a + b)[..|a + b| - 1] == a + b';
      var m := Fold(acc, a + b', step);
      calc {
        Fold(acc, a + [x] + b, step);
        step(Fold(acc, a + [x] + b', step), y);
        step(Fold(acc, a + b' + [x], step), y);
        step(step(m, x), y);
        step(step(m, y), x);
        step(Fold(acc, a + b, step), x);
        Fold(acc, a + b + [x], step);
      }
    } else {
      assert a + [x] + b == a + b + [x];
    }
  }

  /** A fold with a commuting step does not depend on the order of its items:
      any permutation gives the same result. */
  lemma {:induction false} FoldPermutation<T(!new), A(!new)>(acc: A, a: seq<T>, b: seq<T>, step: (A, T) -> A)
    requires Commutes(step)
    requires multiset(a) == multiset(b)
    ensures Fold(acc, a, step) == Fold(acc, b, step)
    decreases |a|
  {
    if |a| > 0 {
      var x := a[|a| - 1];
      var a' := a[..|a| - 1];
      SplitAt(a, |a| - 1);
      assert x in multiset(b);
      var j :| 0 <= j < |b| && b[j] == x;
      var rest := b[..j] + b[j + 1..];
      SplitAt(b, j);
      FoldPermutation(acc, a', rest, step);
      FoldMoveLast(acc, b[..j], x, b[j + 1..], step);
      assert (rest + [x])[..|rest + [x]| - 1] == rest;
    }
  }

  /** Taking out the element at `j` removes one copy of it from the multiset. */
  lemma SplitAt<T>(b: seq<T>, j: nat)
    requires j < |b|
    ensures b == b[..j] + [b[j]] + b[j + 1..]
    ensures multiset(b[..j] + b[j + 1..]) == multiset(b) - multiset{b[j]}
  {
    assert b == b[..j] + [b[j]] + b[j + 1..];
    assert multiset(b) == multiset(b[..j]) + multiset([b[j]]) + multiset(b[j + 1..]);
  }

  /** `a` is `b` with some elements left out, the rest in their order. */
  ghost predicate IsSubsequence<T>(a: seq<T>, b: seq<T>)
    decreases |b|
  {
    if |a| == 0 then true
    else if |b| == 0 then false
    else (a[0] == b[0] && IsSubsequence(a[1..], b[1..])) || IsSubsequence(a, b[1..])
  }

  /** `xs.filter(p)`: the elements satisfying `p`, each as often as in `xs`,
      in their original order. */
  function Filter<T(!new)>(xs: seq<T>, p: T -> bool): (r: seq<T>)
    ensures |r| <= |xs|
    ensures forall x :: x in r <==> x in xs && p(x)
    ensures forall x :: multiset(r)[x] == if p(x) then multiset(xs)[x] else 0
    ensures IsSubsequence(r, xs)
    decreases |xs|
  {
    if |xs| == 0 then []
    else
      var rest := Filter(xs[1..], p);
      assert xs == [xs[0]] + xs[1..];
      if p(xs[0]) then
        assert ([xs[0]] + rest)[1..] == rest;
        [xs[0]] + rest
      else rest
  }

  /** `Array.prototype.findIndex`: the first index whose element meets `p`. */
  function FirstIndex<T>(xs: seq<T>, p: T -> bool): (r: Option<nat>)
    ensures r.Some? ==> r.value < |xs| && p(xs[r.value])
    ensures r.Some? ==> forall j :: 0 <= j < r.value ==> !p(xs[j])
    ensures r.None? <==> forall j :: 0 <= j < |xs| ==> !p(xs[j])
    decreases |xs|
  {
    if |xs| == 0 then None
    else if p(xs[0]) then Some(0)
    else
      var rest := xs[1..];
      assert forall j :: 1 <= j < |xs| ==> xs[j] == rest[j - 1];
      match FirstIndex(rest, p)
      case None => None
      case Some(j) => Some(j + 1)
  }
}

=== FILE: skill_detail.dfy ===
/** The detail panel opened for one skill: its level description and the
    projects that use it. */
module SkillDetail {
  import opened Wrappers
  import opened Seqs
  import opened Skills
  import SkillsData

  datatype Project = Project(
    id: string,
    title: string,
    subtitle: Option<string>,
    description: string,
    tags: seq<string>,
    year: Option<int>)

  /** What the year corner of a card shows: nothing, the year badge, or bare
      text outside any badge. */
  datatype YearSlot = NoYear | YearBadge(year: int) | StrayText(text: string)

  /** One entry of "Projects Using This Skill". An optional subtitle is `None`
      when the panel leaves it out. */
  datatype ProjectCard = ProjectCard(
    href: string,
    title: string,
    subtitle: Option<string>,
    description: string,
    tags: seq<string>,
    year: YearSlot)

  datatype Panel = Panel(
    name: string,
    category: Category,
    badges: seq<string>,
    level: Level,
    levelText: string,
    related: seq<ProjectCard>,
    showRelated: bool)

  /** `skill.projectIds?.includes(id)`. */
  predicate Lists(skill: Skill, id: string) {
    skill.projectIds.Some? && id in skill.projectIds.value
  }

  /** `relatedProjects`: the projects the skill lists, in the order of the
      project catalogue. */
  function RelatedProjects(skill: Skill, projects: seq<Project>): (r: seq<Project>)
    ensures forall p :: p in r <==> p in projects && Lists(skill, p.id)
    ensures forall p :: multiset(r)[p] == if Lists(skill, p.id) then multiset(projects)[p] else 0
    ensures IsSubsequence(r, projects)
    ensures skill.projectIds.None? ==> r == []
  {
    var r := Filter(projects, (p: Project) => Lists(skill, p.id));
    if skill.projectIds.None? then
      assert forall p :: p !in r;
      r
    else r
  }

  /** `levelDescriptions[skill.level]`. */
  function LevelDescription(level: Level): string {
    if level == 1 then "Novice – follows tutorials and completes guided tasks"
    else if level == 2 then "Practitioner – builds small features independently; basic testing/tooling"
    else if level == 3 then "Competent – ships production features end-to-end; on-call/debugging"
    else if level == 4 then "Proficient – designs components; improves performance/reliability; mentors"
    else "Expert – sets patterns and practices; solves novel problems; publishes/shares"
  }

  /** The panel's table of level wordings is the legend's, level for level. */
  lemma LevelDescriptionsAgree(level: Level)
    ensures LevelDescription(level) == SkillsData.LevelDefinition(level)
  {
    match level
    case 1 =>
    case 2 =>
    case 3 =>
    case 4 =>
    case 5 =>
  }

  /** The first four tags of a project, as its card shows them. */
  function CardTags(p: Project): (r: seq<string>)
    ensures |r| == Min(4, |p.tags|)
    ensures forall i :: 0 <= i < |r| ==> r[i] == p.tags[i]
  {
    Take(p.tags, 4)
  }

  const ProjectLinkPrefix := "/projects?project="

  /** `{project.year && (<span>{project.year}</span>)}` as written. An absent
      year shows nothing and a non-zero year its badge; but a year of 0 makes
      the expression the number 0, which React renders as the text "0". */
  function YearSlotAsWritten(year: Option<int>): (s: YearSlot)
    ensures s.NoYear? <==> year.None?
    ensures s.YearBadge? <==> year.Some? && year.value != 0
    ensures s.YearBadge? ==> s.year == year.value
    ensures s.StrayText? ==> year == Some(0)
  {
    match year
    case None => NoYear
    case Some(y) => if y != 0 then YearBadge(y) else StrayText("0")
  }

  /** A project with year 0 gets a stray "0" on its card. */
  lemma ZeroYearLeaks()
    ensures YearSlotAsWritten(Some(0)) == StrayText("0")
  {
  }

  /** The year corner as evidently intended: the badge for a non-zero year and
      nothing otherwise, never stray text. It agrees with the code as written
      on every year but 0. */
  function YearSlotIntended(year: Option<int>): (s: YearSlot)
    ensures !s.StrayText?
    ensures s.YearBadge? <==> year.Some? && year.value != 0
    ensures s.YearBadge? ==> s.year == year.value
    ensures year != Some(0) ==> s == YearSlotAsWritten(year)
  {
    if year.Some? && year.value != 0 then YearBadge(year.value) else NoYear
  }

  /** A project's card: a link to it, its title and description, its subtitle
      when that is non-empty, its first four tags, and the badge of a non-zero
      year. */
  function Card(p: Project): (c: ProjectCard)
    ensures c.href == ProjectLinkPrefix + p.id
    ensures c.title == p.title && c.description == p.description
    ensures c.subtitle.Some? <==> p.subtitle.Some? && p.subtitle.value != ""
    ensures c.subtitle.Some? ==> c.subtitle == p.subtitle
    ensures c.year.YearBadge? <==> p.year.Some? && p.year.value != 0
    ensures c.year.YearBadge? ==> c.year.year == p.year.value
    ensures !c.year.StrayText?
    ensures c.tags == CardTags(p)
  {
    ProjectCard(
      ProjectLinkPrefix + p.id,
      p.title,
      if p.subtitle.Some? && p.subtitle.value != "" then p.subtitle else None,
      p.description,
      CardTags(p),
      YearSlotIntended(p.year))
  }

  function Cards(ps: seq<Project>): (r: seq<ProjectCard>)
    ensures |r| == |ps| && forall i :: 0 <= i < |ps| ==> r[i] == Card(ps[i])
  {
    seq(|ps|, i requires 0 <= i < |ps| => Card(ps[i]))
  }

  /** `SkillDetail`: nothing without a skill; otherwise its panel, with the
      related-projects section present exactly when some project is listed. */
  function Render(skill: Option<Skill>, projects: seq<Project>): (r: Option<Panel>)
    ensures r.None? <==> skill.None?
    ensures r.Some? ==> r.value.name == skill.value.name && r.value.level == skill.value.level
    ensures r.Some? ==> r.value.levelText == LevelDescription(skill.value.level)
    ensures r.Some? ==> r.value.badges == skill.value.tags.GetOr([])
    ensures r.Some? ==> r.value.related == Cards(RelatedProjects(skill.value, projects))
    ensures r.Some? ==> (r.value.showRelated <==> |r.value.related| > 0)
  {
    match skill
    case None => None
    case Some(s) =>
      var related := Cards(RelatedProjects(s, projects));
      Some(Panel(s.name, s.category, s.tags.GetOr([]), s.level, LevelDescription(s.level),
                 related, |related| > 0))
  }

  /** The section is shown exactly when the catalogue holds a project the
      skill lists, and every link in it leads to such a project. */
  lemma RelatedSection(skill: Skill, projects: seq<Project>)
    ensures var panel := Render(Some(skill), projects).value;
            && (panel.showRelated <==> exists p :: p in projects && Lists(skill, p.id))
            && forall c :: c in panel.related ==>
                 exists id :: Lists(skill, id) && c.href == ProjectLinkPrefix + id
  {
    var rel := RelatedProjects(skill, projects);
    var panel := Render(Some(skill), projects).value;
    if exists p :: p in projects && Lists(skill, p.id) {
      var p :| p in projects && Lists(skill, p.id);
      assert p in rel;
    }
    forall c | c in panel.related
      ensures exists id :: Lists(skill, id) && c.href == ProjectLinkPrefix + id
    {
      var i :| 0 <= i < |panel.related| && panel.related[i] == c;
      assert rel[i] in rel;
    }
  }
}

=== FILE: skills.dfy ===
/** The skills catalogue and the skills page's lookup of a skill named in the
    `?skill=` query parameter, plus its category filter. */
module Skills {
  import opened Wrappers
  import opened Seqs

  // ---------------------------------------------------------------------------
  // Data model
  // ---------------------------------------------------------------------------

  /** Proficiency from 1 (novice) to 5 (expert). */
  type Level = x: int | 1 <= x <= 5 witness 1

  datatype Category = Frontend | Backend | Cloud | DevOps

  datatype Skill = Skill(
    name: string,
    level: Level,
    category: Category,
    tags: Option<seq<string>>,
    projectIds: Option<seq<string>>)

  // ---------------------------------------------------------------------------
  // normalize: value.trim().toLowerCase().replace(/[^a-z0-9]+/g, '-')
  // ---------------------------------------------------------------------------

  /** The characters `String.prototype.trim` removes: white space and line
      terminators. */
  predicate IsTrimmed(c: char) {
    || c == '\t' || c == '\n' || c == '\U{000B}' || c == '\U{000C}' || c == '\r' || c == ' '
    || c == '\U{00A0}' || c == '\U{1680}' || ('\U{2000}' <= c <= '\U{200A}')
    || c == '\U{2028}' || c == '\U{2029}' || c == '\U{202F}' || c == '\U{205F}'
    || c == '\U{3000}' || c == '\U{FEFF}'
  }

  function TrimStart(s: string): (r: string)
    ensures |r| <= |s| && r == s[|s| - |r|..]
    ensures |r| > 0 ==> !IsTrimmed(r[0])
    ensures forall i :: 0 <= i < |s| - |r| ==> IsTrimmed(s[i])
  {
    if |s| > 0 && IsTrimmed(s[0]) then TrimStart(s[1..]) else s
  }

  function TrimEnd(s: string): (r: string)
    ensures |r| <= |s| && r == s[..|r|]
    ensures |r| > 0 ==> !IsTrimmed(r[|r| - 1])
    ensures forall i :: |r| <= i < |s| ==> IsTrimmed(s[i])
  {
    if |s| > 0 && IsTrimmed(s[|s| - 1]) then TrimEnd(s[..|s| - 1]) else s
  }

  /** `r` is `s` with the white space `s[..i]` and `s[i + |r|..]` cut off. */
  predicate CutAt(s: string, r: string, i: int) {
    && 0 <= i <= |s| - |r|
    && r == s[i..i + |r|]
    && (forall t :: 0 <= t < i ==> IsTrimmed(s[t]))
    && (forall t :: i + |r| <= t < |s| ==> IsTrimmed(s[t]))
  }

  /** `s.trim()`: a slice of `s` neither end of which is white space, with only
      white space cut off on either side. */
  function Trim(s: string): (r: string)
    ensures exists i :: CutAt(s, r, i)
    ensures |r| > 0 ==> !IsTrimmed(r[0]) && !IsTrimmed(r[|r| - 1])
  {
    var a := TrimStart(s);
    var r := TrimEnd(a);
    TrimCut(s, a, r);
    r
  }

  lemma TrimCut(s: string, a: string, r: string)
    requires |a| <= |s| && a == s[|s| - |a|..]
    requires forall t :: 0 <= t < |s| - |a| ==> IsTrimmed(s[t])
    requires |r| <= |a| && r == a[..|r|]
    requires forall t :: |r| <= t < |a| ==> IsTrimmed(a[t])
    ensures CutAt(s, r, |s| - |a|)
  {
    var i := |s| - |a|;
    assert r == s[i..i + |r|];
    forall t | i + |r| <= t < |s| ensures IsTrimmed(s[t]) {
      assert s[t] == a[t - i];
    }
  }

  predicate IsAlnum(c: char) {
    ('a' <= c <= 'z') || ('0' <= c <= '9')
  }

  /** `c.toLowerCase()`, kept only as far as the `[a-z0-9]` class of its
      characters: ASCII capitals become small letters, U+0130 (capital I with
      dot) becomes `i` followed by a combining dot, U+212A (Kelvin sign)
      becomes `k`. Every other character either is already small or lowers to
      characters outside `[a-z0-9]`, which the replacement step treats alike,
      so it is kept as it is. */
  function LowerChar(c: char): string {
    if 'A' <= c <= 'Z' then [(c as int + 32) as char]
    else if c == '\U{0130}' then ['i', '\U{0307}']
    else if c == '\U{212A}' then ['k']
    else [c]
  }

  /** `toLowerCase()`, character by character: no ASCII capital is left, and
      the result is never shorter. */
  function ToLower(s: string): (r: string)
    ensures |r| >= |s|
    ensures forall i :: 0 <= i < |r| ==> !('A' <= r[i] <= 'Z')
    decreases |s|
  {
    if |s| == 0 then "" else LowerChar(s[0]) + ToLower(s[1..])
  }

  /** The shape of every normalised string: only `a-z`, `0-9` and `-`, and
      never two `-` in a row. */
  predicate IsNormalized(s: string) {
    && (forall i :: 0 <= i < |s| ==> IsAlnum(s[i]) || s[i] == '-')
    && (forall i :: 0 <= i < |s| - 1 ==> !(s[i] == '-' && s[i + 1] == '-'))
  }

  /** A letter, a digit, or a `-` not followed by another keeps a normalised
      string normalised when put in front. */
  lemma ConsNormalized(c: char, rest: string)
    requires IsNormalized(rest)
    requires IsAlnum(c) || (c == '-' && (|rest| > 0 ==> IsAlnum(rest[0])))
    ensures IsNormalized([c] + rest)
  {
    var r := [c] + rest;
    assert forall i :: 1 <= i < |r| ==> r[i] == rest[i - 1];
  }

  /** `s` without its leading run of characters outside `[a-z0-9]`. */
  function SkipRun(s: string): (r: string)
    ensures |r| <= |s| && r == s[|s| - |r|..]
    ensures |r| > 0 ==> IsAlnum(r[0])
    decreases |s|
  {
    if |s| > 0 && !IsAlnum(s[0]) then SkipRun(s[1..]) else s
  }

  /** `s.replace(/[^a-z0-9]+/g, '-')`: every maximal run of characters outside
      `[a-z0-9]` becomes one `-`. */
  function Collapse(s: string): (r: string)
    ensures |r| <= |s|
    ensures IsNormalized(r)
    ensures |r| > 0 <==> |s| > 0
    ensures |s| > 0 ==> (r[0] == '-' <==> !IsAlnum(s[0]))
    ensures |s| > 0 && IsAlnum(s[0]) ==> r[0] == s[0]
    decreases |s|
  {
    if |s| == 0 then ""
    else if IsAlnum(s[0]) then
      var rest := Collapse(s[1..]);
      ConsNormalized(s[0], rest);
      [s[0]] + rest
    else
      var tail := SkipRun(s[1..]);
      var rest := Collapse(tail);
      ConsNormalized('-', rest);
      "-" + rest
  }

  /** `normalize(value)`. */
  function Normalize(value: string): (r: string)
    ensures IsNormalized(r)
  {
    Collapse(ToLower(Trim(value)))
  }

  lemma {:induction false} CollapseFixes(s: string)
    requires IsNormalized(s)
    ensures Collapse(s) == s
    decreases |s|
  {
    if |s| > 0 {
      var tail := s[1..];
      NormalizedTail(s);
      CollapseFixes(tail);
      if !IsAlnum(s[0]) {
        SkipNothing(tail);
      }
    }
  }

  lemma NormalizedTail(s: string)
    requires IsNormalized(s) && |s| > 0
    ensures IsNormalized(s[1..])
    ensures !IsAlnum(s[0]) ==> s[0] == '-' && (|s| > 1 ==> IsAlnum(s[1]))
  {
    var t := s[1..];
    forall i | 0 <= i < |t| ensures IsAlnum(t[i]) || t[i] == '-' {
      assert t[i] == s[i + 1];
    }
    forall i | 0 <= i < |t| - 1 ensures !(t[i] == '-' && t[i + 1] == '-') {
      assert t[i] == s[i + 1] && t[i + 1] == s[i + 2];
    }
  }

  /** A string that starts inside `[a-z0-9]`, or is empty, has no run to skip. */
  lemma SkipNothing(t: string)
    requires |t| > 0 ==> IsAlnum(t[0])
    ensures SkipRun(t) == t
  {
  }

  lemma {:induction false} LowerFixes(s: string)
    requires IsNormalized(s)
    ensures ToLower(s) == s
    decreases |s|
  {
    if |s| > 0 {
      LowerFixes(s[1..]);
      assert s == [s[0]] + s[1..];
    }
  }

  /** Trimming leaves alone a string with no white space at either end. */
  lemma TrimKeeps(s: string)
    requires |s| > 0 ==> !IsTrimmed(s[0]) && !IsTrimmed(s[|s| - 1])
    ensures Trim(s) == s
  {
  }

  lemma TrimFixes(s: string)
    requires IsNormalized(s)
    ensures Trim(s) == s
  {
    TrimKeeps(s);
  }

  /** The lower case of a character other than U+0130 and U+212A. */
  function LowerAscii(c: char): char {
    if 'A' <= c <= 'Z' then (c as int + 32) as char else c
  }

  /** Lowering one character: an ASCII capital becomes its small letter,
      U+0130 becomes `i` followed by U+0307, U+212A becomes `k`, and any other
      character is kept. */
  lemma ToLowerSingle(c: char)
    ensures 'A' <= c <= 'Z' ==> ToLower([c]) == [(c as int + 32) as char]
    ensures c == '\U{0130}' ==> ToLower([c]) == ['i', '\U{0307}']
    ensures c == '\U{212A}' ==> ToLower([c]) == ['k']
    ensures !('A' <= c <= 'Z') && c != '\U{0130}' && c != '\U{212A}' ==> ToLower([c]) == [c]
  {
    assert [c][1..] == [];
  }

  /** Lowering distributes over concatenation, so with `ToLowerSingle` it
      fixes the lowering of every string, one character at a time. */
  lemma {:induction false} ToLowerAppend(a: string, b: string)
    ensures ToLower(a + b) == ToLower(a) + ToLower(b)
    decreases |a|
  {
    if |a| > 0 {
      assert (a + b)[0] == a[0];
      assert (a + b)[1..] == a[1..] + b;
      ToLowerAppend(a[1..], b);
    } else {
      assert a + b == b;
    }
  }

  /** Without U+0130 and U+212A, lowering works character by character. */
  lemma {:induction false} ToLowerPerChar(s: string)
    requires forall i :: 0 <= i < |s| ==> s[i] != '\U{0130}' && s[i] != '\U{212A}'
    ensures |ToLower(s)| == |s|
    ensures forall i :: 0 <= i < |s| ==> ToLower(s)[i] == LowerAscii(s[i])
    decreases |s|
  {
    if |s| > 0 {
      ToLowerPerChar(s[1..]);
    }
  }

  /** A letter or digit of the Latin alphabet, either case. */
  predicate IsWordChar(c: char) {
    ('A' <= c <= 'Z') || IsAlnum(c)
  }

  lemma WordCharLowers(c: char)
    requires IsWordChar(c)
    ensures IsAlnum(LowerAscii(c)) && !IsTrimmed(c)
    ensures c != '\U{0130}' && c != '\U{212A}'
  {
  }

  /** The lower case of a word is letters and digits only. */
  lemma LowerWord(s: string)
    requires forall i :: 0 <= i < |s| ==> IsWordChar(s[i])
    ensures |ToLower(s)| == |s|
    ensures forall i :: 0 <= i < |s| ==> ToLower(s)[i] == LowerAscii(s[i])
    ensures IsNormalized(ToLower(s))
  {
    forall i | 0 <= i < |s| ensures s[i] != '\U{0130}' && s[i] != '\U{212A}' {
      WordCharLowers(s[i]);
    }
    ToLowerPerChar(s);
    var low := ToLower(s);
    forall i | 0 <= i < |low| ensures IsAlnum(low[i]) {
      WordCharLowers(s[i]);
    }
  }

  /** A single word of Latin letters and digits normalises to its lower case:
      none of its characters is dropped or replaced. */
  lemma NormalizeWord(s: string)
    requires forall i :: 0 <= i < |s| ==> IsWordChar(s[i])
    ensures Normalize(s) == ToLower(s)
    ensures |Normalize(s)| == |s|
    ensures forall i :: 0 <= i < |s| ==> Normalize(s)[i] == LowerAscii(s[i])
  {
    if |s| > 0 {
      WordCharLowers(s[0]);
      WordCharLowers(s[|s| - 1]);
    }
    TrimKeeps(s);
    LowerWord(s);
    CollapseFixes(ToLower(s));
  }

  /** A leading run of letters and digits passes through the replacement. */
  lemma {:induction false} CollapseWordPrefix(a: string, b: string)
    requires forall i :: 0 <= i < |a| ==> IsAlnum(a[i])
    ensures Collapse(a + b) == a + Collapse(b)
    decreases |a|
  {
    if |a| > 0 {
      var s := a + b;
      assert s[0] == a[0] && IsAlnum(s[0]);
      assert s[1..] == a[1..] + b;
      CollapseWordPrefix(a[1..], b);
      calc {
        Collapse(s);
        [a[0]] + Collapse(a[1..] + b);
        [a[0]] + (a[1..] + Collapse(b));
        { assert a == [a[0]] + a[1..]; }
        a + Collapse(b);
      }
    } else {
      assert a + b == b;
    }
  }

  /** A run of separators before a letter or digit is skipped whole. */
  lemma {:induction false} SkipSeparators(sep: string, b: string)
    requires forall i :: 0 <= i < |sep| ==> !IsAlnum(sep[i])
    requires |b| > 0 ==> IsAlnum(b[0])
    ensures SkipRun(sep + b) == b
    decreases |sep|
  {
    if |sep| > 0 {
      assert (sep + b)[1..] == sep[1..] + b;
      SkipSeparators(sep[1..], b);
    } else {
      assert sep + b == b;
    }
  }

  /** Two words joined by a run of separators are joined by one `-`. */
  lemma CollapseAcross(a: string, sep: string, b: string)
    requires forall i :: 0 <= i < |a| ==> IsAlnum(a[i])
    requires |sep| > 0 && forall i :: 0 <= i < |sep| ==> !IsAlnum(sep[i])
    requires |b| > 0 ==> IsAlnum(b[0])
    ensures Collapse(a + sep + b) == a + "-" + Collapse(b)
  {
    var t := sep + b;
    SkipAfterFirst(sep, b);
    CollapseSeparatorFirst(t, b);
    Associate(a, sep, b);
    CollapseWordPrefix(a, t);
    Associate(a, "-", Collapse(b));
  }

  lemma SkipAfterFirst(sep: string, b: string)
    requires |sep| > 0 && forall i :: 0 <= i < |sep| ==> !IsAlnum(sep[i])
    requires |b| > 0 ==> IsAlnum(b[0])
    ensures !IsAlnum((sep + b)[0]) && SkipRun((sep + b)[1..]) == b
  {
    assert (sep + b)[1..] == sep[1..] + b;
    SkipSeparators(sep[1..], b);
  }

  lemma Associate(a: string, b: string, c: string)
    ensures a + (b + c) == a + b + c
  {
  }

  lemma CollapseSeparatorFirst(t: string, b: string)
    requires |t| > 0 && !IsAlnum(t[0]) && SkipRun(t[1..]) == b
    ensures Collapse(t) == "-" + Collapse(b)
  {
  }

  /** Normalising twice is normalising once. */
  lemma NormalizeIdempotent(value: string)
    ensures Normalize(Normalize(value)) == Normalize(value)
  {
    var n := Normalize(value);
    TrimFixes(n);
    LowerFixes(n);
    CollapseFixes(n);
  }

  // ---------------------------------------------------------------------------
  // findSkillByQuery
  // ---------------------------------------------------------------------------

  /** `hay.includes(needle)`. */
  predicate Includes(hay: string, needle: string) {
    exists i :: 0 <= i <= |hay| && OccursAt(hay, needle, i)
  }

  predicate OccursAt(hay: string, needle: string, i: int) {
    0 <= i <= |hay| - |needle| && hay[i..i + |needle|] == needle
  }

  /** The three tiers of the lookup, tried in order: the normalised name is
      the normalised query (1), the query contains the name (2), the name
      contains the query (3). */
  datatype Tier = Exact | NameInQuery | QueryInName

  predicate Meets(tier: Tier, target: string, s: Skill) {
    match tier
    case Exact => Normalize(s.name) == target
    case NameInQuery => Includes(target, Normalize(s.name))
    case QueryInName => Includes(Normalize(s.name), target)
  }

  /** `skills[i]` is the first skill meeting `tier`. */
  predicate FirstMeeting(skills: seq<Skill>, tier: Tier, target: string, i: int) {
    && 0 <= i < |skills|
    && Meets(tier, target, skills[i])
    && forall j :: 0 <= j < i ==> !Meets(tier, target, skills[j])
  }

  /** `skills.find(...)` with the test of `tier`, as an index. */
  function Find(skills: seq<Skill>, tier: Tier, target: string): (r: Option<nat>)
    ensures r.Some? ==> FirstMeeting(skills, tier, target, r.value)
    ensures r.None? <==> !AnyMeets(skills, tier, target)
  {
    FirstIndex(skills, s => Meets(tier, target, s))
  }

  /** Some skill meets `tier`. */
  predicate AnyMeets(skills: seq<Skill>, tier: Tier, target: string) {
    exists j :: 0 <= j < |skills| && Meets(tier, target, skills[j])
  }

  /** `findSkillByQuery(query)` over the catalogue `skills`: the first skill of
      the first tier that has one, or nothing when no skill meets any tier. */
  function FindSkillByQuery(skills: seq<Skill>, query: string): (r: Option<Skill>)
    ensures r.Some? ==> r.value in skills
    ensures var t := Normalize(query);
            AnyMeets(skills, Exact, t) ==>
              exists i :: FirstMeeting(skills, Exact, t, i) && r == Some(skills[i])
    ensures var t := Normalize(query);
            !AnyMeets(skills, Exact, t) && AnyMeets(skills, NameInQuery, t) ==>
              exists i :: FirstMeeting(skills, NameInQuery, t, i) && r == Some(skills[i])
    ensures var t := Normalize(query);
            !AnyMeets(skills, Exact, t) && !AnyMeets(skills, NameInQuery, t) && AnyMeets(skills, QueryInName, t) ==>
              exists i :: FirstMeeting(skills, QueryInName, t, i) && r == Some(skills[i])
    ensures var t := Normalize(query);
            r.None? <==> !AnyMeets(skills, Exact, t) && !AnyMeets(skills, NameInQuery, t) && !AnyMeets(skills, QueryInName, t)
  {
    var target := Normalize(query);
    match Find(skills, Exact, target)
    case Some(i) => Some(skills[i])
    case None =>
      match Find(skills, NameInQuery, target)
      case Some(i) => Some(skills[i])
      case None =>
        match Find(skills, QueryInName, target)
        case Some(i) => Some(skills[i])
        case None => None
  }

  /** When no name equals the query, the first name contained in it
      answers. */
  lemma SecondTierAnswers(skills: seq<Skill>, query: string, i: int)
    requires !AnyMeets(skills, Exact, Normalize(query))
    requires FirstMeeting(skills, NameInQuery, Normalize(query), i)
    ensures FindSkillByQuery(skills, query) == Some(skills[i])
  {
  }

  /** A query that normalises to the empty string finds the first skill, when
      no skill name normalises to the empty string. */
  lemma EmptyQueryFindsFirst(skills: seq<Skill>, query: string)
    requires Normalize(query) == "" && |skills| > 0
    requires forall j :: 0 <= j < |skills| ==> Normalize(skills[j].name) != ""
    ensures FindSkillByQuery(skills, query) == Some(skills[0])
  {
    assert OccursAt(Normalize(skills[0].name), "", 0);
    assert !AnyMeets(skills, NameInQuery, "");
    assert FirstMeeting(skills, QueryInName, "", 0);
  }

  // ---------------------------------------------------------------------------
  // filteredSkills
  // ---------------------------------------------------------------------------

  datatype Selection = All | Only(category: Category)

  /** `filteredSkills`: the whole catalogue for `All`, otherwise exactly the
      skills of the chosen category, in catalogue order. */
  function FilteredSkills(skills: seq<Skill>, sel: Selection): (r: seq<Skill>)
    ensures sel.All? ==> r == skills
    ensures sel.Only? ==> forall s :: s in r <==> s in skills && s.category == sel.category
    ensures sel.Only? ==> forall s :: multiset(r)[s] == if s.category == sel.category then multiset(skills)[s] else 0
    ensures IsSubsequence(r, skills)
  {
    match sel
    case All =>
      SubsequenceOfSelf(skills);
      skills
    case Only(c) => Filter(skills, (s: Skill) => s.category == c)
  }

  lemma {:induction false} SubsequenceOfSelf<T>(s: seq<T>)
    ensures IsSubsequence(s, s)
    decreases |s|
  {
    if |s| > 0 {
      SubsequenceOfSelf(s[1..]);
    }
  }

  // ---------------------------------------------------------------------------
  // The page's selection state
  // ---------------------------------------------------------------------------

  /** The category tab chosen and the skill whose detail panel is open. */
  datatype PageState = PageState(category: Selection, selected: Option<Skill>)

  /** The effect run when the `skill` query parameter changes: a non-empty
      parameter naming a skill selects the `All` tab and opens that skill;
      anything else leaves the page as it is. */
  function OnSkillParam(st: PageState, skills: seq<Skill>, param: Option<string>): (r: PageState)
    ensures (param.None? || param.value == "") ==> r == st
    ensures param.Some? && param.value != "" ==>
              match FindSkillByQuery(skills, param.value)
              case Some(s) => r == PageState(All, Some(s))
              case None => r == st
  {
    if param.None? || param.value == "" then st
    else match FindSkillByQuery(skills, param.value)
      case Some(s) => PageState(All, Some(s))
      case None => st
  }

  /** Choosing a tab closes the detail panel. */
  function OnCategoryChange(st: PageState, sel: Selection): (r: PageState)
    ensures r.category == sel && r.selected.None?
  {
    PageState(sel, None)
  }

  /** A skill opened from the query parameter is always on the grid shown
      beside it. */
  lemma OpenedSkillIsListed(st: PageState, skills: seq<Skill>, param: Option<string>)
    requires OnSkillParam(st, skills, param).selected != st.selected
    ensures var r := OnSkillParam(st, skills, param);
            r.selected.Some? && r.selected.value in FilteredSkills(skills, r.category)
  {
  }
}

=== FILE: skills_data.dfy ===
/** The skills catalogue shipped with the site and the level definitions
    shown by its legend. */
module SkillsData {
  import opened Wrappers
  import opened Skills

  function Uses(ids: seq<string>): Option<seq<string>> {
    Some(ids)
  }

  /** The catalogue, in the order the page lists it. */
  const Catalogue: seq<Skill> := [
    Skill("HTML", 5, Frontend, None, Uses(["blazing-adoptions", "portfolio-dev"])),
    Skill("CSS", 5, Frontend, None, Uses(["blazing-adoptions", "portfolio-dev"])),
    Skill("JavaScript", 1, Frontend, None, Uses(["blazing-adoptions", "gearshift", "ollama-chat", "portfolio-dev"])),
    Skill("TypeScript", 1, Frontend, None, Uses(["portfolio-dev"])),
    Skill("React", 2, Frontend, None, Uses(["blazing-adoptions", "portfolio-dev"])),
    Skill("Next.js", 1, Frontend, None, Uses(["portfolio-dev"])),
    Skill("Tailwind CSS", 1, Frontend, None, Uses(["portfolio-dev"])),
    Skill("Python", 4, Backend, None, Uses(["blazing-adoptions"])),
    Skill("Java", 2, Backend, None, Uses(["drone-automation"])),
    Skill("C", 1, Backend, None, None),
    Skill("C++", 1, Backend, None, Uses(["gearshift"])),
    Skill("Go", 2, Backend, None, None),
    Skill("Flask", 2, Backend, None, Uses(["blazing-adoptions"])),
    Skill("MySQL", 2, Backend, None, Uses(["blazing-adoptions", "ollama-chat"])),
    Skill("PostgreSQL", 1, Backend, None, None),
    Skill("Google Cloud Run", 3, Cloud, None, Uses(["blazing-adoptions"])),
    Skill("BigQuery", 3, Cloud, None, None),
    Skill("Terraform", 2, Cloud, None, None),
    Skill("Google Cloud Apigee", 4, Cloud, None, None),
    Skill("Docker", 2, DevOps, None, Uses(["blazing-adoptions", "ollama-chat", "portfolio-dev"])),
    Skill("CI/CD Pipelines", 4, DevOps, None, Uses(["blazing-adoptions", "portfolio-dev"]))
  ]

  /** `skillLevelDefinitions`: the legend's wording of each level. */
  function LevelDefinition(level: Level): string {
    if level == 1 then "Novice – follows tutorials and completes guided tasks"
    else if level == 2 then "Practitioner – builds small features independently; basic testing/tooling"
    else if level == 3 then "Competent – ships production features end-to-end; on-call/debugging"
    else if level == 4 then "Proficient – designs components; improves performance/reliability; mentors"
    else "Expert – sets patterns and practices; solves novel problems; publishes/shares"
  }

  /** The query `CI/CD` normalises to `ci-cd`. */
  lemma NormalizeCiCd(q: string)
    requires q == "CI/CD"
    ensures Normalize(q) == "ci-cd"
  {
    LowerCiCd(q);
    CollapseCiCd(ToLower(q));
  }

  lemma LowerCiCd(q: string)
    requires q == "CI/CD"
    ensures Trim(q) == q && ToLower(q) == "ci/cd"
  {
    TrimKeeps(q);
    ToLowerPerChar(q);
  }

  lemma CollapseCiCd(low: string)
    requires low == "ci/cd"
    ensures Collapse(low) == "ci-cd"
  {
    var a, sep, b := low[..2], low[2..3], low[3..];
    assert low == a + sep + b;
    CollapseAcross(a, sep, b);
    CollapseFixes(b);
  }

  /** A string starting with a Latin letter or digit normalises to a string
      starting with that character in lower case. */
  lemma NormalizeHead(s: string)
    requires |s| > 0 && IsWordChar(s[0])
    ensures |Normalize(s)| > 0 && Normalize(s)[0] == LowerAscii(s[0])
  {
    WordCharLowers(s[0]);
    TrimHead(s);
    LowerHead(Trim(s));
  }

  /** Trimming keeps a first character that is not white space. */
  lemma TrimHead(s: string)
    requires |s| > 0 && !IsTrimmed(s[0])
    ensures |Trim(s)| > 0 && Trim(s)[0] == s[0]
  {
    var r := Trim(s);
    var i :| CutAt(s, r, i);
    assert i == 0 && |r| > 0;
  }

  /** Lowering a string starting with a Latin letter or digit starts with
      that character in lower case. */
  lemma LowerHead(x: string)
    requires |x| > 0 && IsWordChar(x[0])
    ensures |ToLower(x)| > 0 && ToLower(x)[0] == LowerAscii(x[0])
  {
    assert LowerChar(x[0]) == [LowerAscii(x[0])];
  }

  /** Every character of an included string occurs in the including one. */
  lemma IncludedChars(hay: string, needle: string)
    requires Includes(hay, needle)
    ensures forall k :: 0 <= k < |needle| ==> needle[k] in hay
  {
    var i :| 0 <= i <= |hay| && OccursAt(hay, needle, i);
    forall k | 0 <= k < |needle| ensures needle[k] in hay {
      assert needle[k] == hay[i + k];
    }
  }

  /** The one catalogue name whose normalised form is longer than `ci-cd`
      but starts with it. */
  lemma NormalizePipelines(name: string)
    requires name == "CI/CD Pipelines"
    ensures |Normalize(name)| > 5
  {
    TrimKeeps(name);
    LowerPipelines(name);
    CollapsePipelines(ToLower(name));
  }

  lemma LowerPipelines(name: string)
    requires name == "CI/CD Pipelines"
    ensures ToLower(name) == "ci/cd pipelines"
  {
    ToLowerPerChar(name);
  }

  lemma CollapsePipelines(low: string)
    requires low == "ci/cd pipelines"
    ensures |Collapse(low)| > 5
  {
    var a, sep, b := low[..2], low[2..3], low[3..];
    assert low == a + sep + b;
    CollapseAcross(a, sep, b);
    var c, d := b[..2], b[2..];
    assert b == c + d;
    CollapseWordPrefix(c, d);
  }

  /** A single word never normalises to `ci-cd`, which holds a dash. */
  lemma WordNotCiCd(name: string)
    requires forall i :: 0 <= i < |name| ==> IsWordChar(name[i])
    ensures Normalize(name) != "ci-cd"
  {
    NormalizeWord(name);
    if |name| == 5 {
      assert Normalize(name)[2] == LowerAscii(name[2]) != '-';
    }
  }

  /** A name starting with a Latin letter or digit other than `c` or `C`
      never normalises to `ci-cd`. */
  lemma HeadNotCiCd(name: string)
    requires |name| > 0 && IsWordChar(name[0]) && LowerAscii(name[0]) != 'c'
    ensures Normalize(name) != "ci-cd"
  {
    NormalizeHead(name);
  }

  /** No catalogue name normalises to `ci-cd`: most start with a letter other
      than `c`; `CSS` and `C` are single words of the wrong length; `C++` and
      `CI/CD Pipelines` are checked on their own. */
  lemma NoNameIsCiCd(j: int)
    requires 0 <= j < |Catalogue|
    ensures Normalize(Catalogue[j].name) != "ci-cd"
  {
    var name := Catalogue[j].name;
    if j == 1 || j == 9 {
      WordNotCiCd(name);
    } else if j == 10 {
      CPlusPlusNotCiCd(name);
    } else if j == 20 {
      NormalizePipelines(name);
    } else {
      HeadNotCiCd(name);
    }
  }

  lemma CPlusPlusNotCiCd(name: string)
    requires name == "C++"
    ensures Normalize(name) != "ci-cd"
  {
    TrimKeeps(name);
    ToLowerPerChar(name);
  }

  /** A name is not contained in `hay` when one of its letters, lowered,
      does not occur in `hay`. */
  lemma LetterNotIn(hay: string, name: string, k: int)
    requires |name| > 0 && IsWordChar(name[0])
    requires k == 0 || forall i :: 0 <= i < |name| ==> IsWordChar(name[i])
    requires 0 <= k < |name| && LowerAscii(name[k]) !in hay
    ensures !Includes(hay, Normalize(name))
  {
    if k == 0 {
      NormalizeHead(name);
    } else {
      NormalizeWord(name);
    }
    if Includes(hay, Normalize(name)) {
      IncludedChars(hay, Normalize(name));
    }
  }

  /** The names listed before `C` are not contained in `ci-cd`. */
  lemma NotInCiCd(t: string, j: int)
    requires t == "ci-cd" && 0 <= j < 9
    ensures !Includes(t, Normalize(Catalogue[j].name))
  {
    var name := Catalogue[j].name;
    if j == 1 {
      LetterNotIn(t, name, 1);
    } else {
      LetterNotIn(t, name, 0);
    }
  }

  /** No name equals `ci-cd`. */
  lemma NoExactCiCd(t: string)
    requires t == "ci-cd"
    ensures !AnyMeets(Catalogue, Exact, t)
  {
    forall j | 0 <= j < |Catalogue| ensures !Meets(Exact, t, Catalogue[j]) {
      NoNameIsCiCd(j);
    }
  }

  /** `C` is the first name `ci-cd` contains. */
  lemma CFirstInCiCd(t: string)
    requires t == "ci-cd"
    ensures FirstMeeting(Catalogue, NameInQuery, t, 9)
  {
    forall j | 0 <= j < 9 ensures !Meets(NameInQuery, t, Catalogue[j]) {
      NotInCiCd(t, j);
    }
    CatalogueC();
    CInCiCd(t, Catalogue[9].name);
  }

  /** Asking for `?skill=CI/CD` opens the skill `C`, not `CI/CD Pipelines`:
      no name equals `ci-cd`, and `c` is the first name the query contains,
      so the second tier answers before the third is tried. */
  lemma CiCdFindsC(query: string)
    requires query == "CI/CD"
    ensures FindSkillByQuery(Catalogue, query) == Some(Catalogue[9])
    ensures Catalogue[9].name == "C"
  {
    NormalizeCiCd(query);
    NoExactCiCd(Normalize(query));
    CFirstInCiCd(Normalize(query));
    CatalogueC();
    SecondTierAnswers(Catalogue, query, 9);
  }

  lemma CatalogueC()
    ensures Catalogue[9].name == "C"
  {
  }

  lemma CInCiCd(t: string, name: string)
    requires t == "ci-cd" && name == "C"
    ensures Includes(t, Normalize(name))
  {
    NormalizeWord(name);
    assert OccursAt(t, Normalize(name), 0);
  }
}

=== FILE: upstream.dfy ===
/** What the metrics route sees of GitHub: responses as abstract values, and the
    request headers every call carries (`ghHeaders`). */
module Upstream {
  import opened Wrappers

  /** The outcome of one `fetch`: either the promise rejects (network failure)
      or a response arrives with a status, an optional `Link` header and a body
      already read as JSON into `T`. */
  datatype Fetch<T> =
    | NetworkError
    | Response(status: int, link: Option<string>, body: T)

  /** One settled entry of `Promise.allSettled`: the fetch helper resolved to a
      value, or it rejected (threw). */
  datatype Settled<T> = Fulfilled(value: T) | Rejected

  /** `Response.ok`: a status in the range 200-299. */
  predicate IsOk(status: int) {
    200 <= status <= 299
  }

  /** `if (process.env.GITHUB_TOKEN)`: a token that is set and non-empty. */
  predicate HasToken(token: Option<string>) {
    token.Some? && token.value != ""
  }

  const AcceptValue: string := "application/vnd.github+json"
  const UserAgentValue: string := "lcmiles.dev-metrics"

  /** `ghHeaders()`: the fixed identification headers, plus a bearer
      Authorization header exactly when a token is configured. */
  function GhHeaders(token: Option<string>): (h: map<string, string>)
    ensures "Accept" in h && h["Accept"] == AcceptValue
    ensures "User-Agent" in h && h["User-Agent"] == UserAgentValue
    ensures "Authorization" in h <==> HasToken(token)
    ensures HasToken(token) ==> h["Authorization"] == "Bearer " + token.value
    ensures h.Keys <= {"Accept", "User-Agent", "Authorization"}
  {
    var base := map["Accept" := AcceptValue, "User-Agent" := UserAgentValue];
    if HasToken(token) then base["Authorization" := "Bearer " + token.value] else base
  }
}

=== FILE: wrappers.dfy ===
/** Optional values: the model's stand-in for JavaScript's `null` / `undefined`. */
module Wrappers {

  datatype Option<+T> = None | Some(value: T) {

    /** The value, or `default` when absent (JavaScript's `x ?? default`). */
    function GetOr(default: T): T {
      match this
      case Some(v) => v
      case None => default
    }
  }
}
